=== FILE: README.md ===
# audio-parser in Dafny

A model of the batch audio-to-text pipeline of audio-parser. The pipeline has
four stages, all in `src/parser.py`:

1. **Discovery.** Find the recordings under `{cwd}/records/` and derive, from
   the part of each name before its first `.`, a segment directory under
   `{cwd}/output/` and a transcript directory under `{cwd}/text/`.
2. **Segmentation.** Cut every recording into five-minute windows named
   `{base}_part_{k}.mp3`, skipping any window whose file already exists.
3. **Listing and transcription.** List the `.mp3` files of each segment
   directory and reduce each segment's speech-recognition outcome to
   transcript text. Any text containing `Exception` becomes `''`.
4. **Writing.** Write each transcript to `{text dir}/{prefix}.txt`, where the
   prefix is the part of the segment name before its first `.`.

`app.py`'s `main` composes the stages. The earlier prototype segmenter in the
top-level `parser.py` uses the same window arithmetic, writes
`segment_{k}.mp3` and overwrites whatever is there.

The model is purely functional:

- **Files.** The file system is a map from path to content plus a set of
  directories. Audio is reduced to its duration in milliseconds.
- **Results.** Every call returns either its result or the exception it
  raises. A call that changes the file system returns the new state and the
  exception, if any. Effects made before the exception, such as a created
  directory, are kept.
- **External calls.** `os.listdir` and the speech recognizer are parameters
  of the run: an arbitrary listing (or failure) per directory, and an
  arbitrary recognition outcome per segment.
- **The driver.** `main` is modelled as the trace of calls it makes into the
  stages, in order, plus the exception that ended the run. Each call in the
  trace is performed by the model of its stage, on the file system the call
  before it left. A listing call records what the lister returned. A write
  call carries no text; it transcribes its segment again, which gives the
  text the transcription call just returned, since it sees the same file
  system and the same recognizer outcome.

The modules follow the program: `Results`, `Strings` (split at the first `.`,
`in`, `lower()`), `Decimal` (`str(n)`), `Paths` (`os.path.join`,
`os.path.splitext`), `FileSystem`, `Windows` (the window arithmetic shared by
both segmenters), `Parser` (`src/parser.py`), `Prototype` (`parser.py`) and
`App` (`app.py`).

Behaviour worth noting, which the model follows:

- **A regular file in the records directory whose name has no `.`.** The
  two-name unpacking of `split('.', 1)` raises `ValueError`, which ends the
  whole run. The file is not skipped.
- **A missing segment directory.** `os.listdir` raises on it; the lister
  does not return an empty list.
- **`transcribe_audio`.** It lets a decoding failure of the segment, and a
  failure of `sr.AudioFile` or `record`, escape. Only the recognizer call
  itself is inside the `try`.
- **`main`.** It has no `try`: the first exception from any stage ends the
  run.
- **The `isdir` probes at the top of `get_source_file_names`.** They discard
  their results and never raise, so they validate nothing.
- **The prototype and directories.** It overwrites files, but a directory at
  `segment_{k}.mp3` makes that part's `export` raise `IsADirectoryError`.
  The parts before it have been written by then.

## Model

| member | source | states |
|---|---|---|
| Windows.SegmentCount | src/parser.py:81 | the count reaches `total` (`total <= n*L`), its last window starts inside the recording (`(n-1)*L < total`), and it is 0 exactly when `total` is 0 |
| Windows.SegmentCountIsCeiling | src/parser.py:81 | any `m` with `total <= m*L` and either `m = 0` or `(m-1)*L < total` is the count, and the count has both properties: it is `ceil(total/L)` |
| Windows.Window | src/parser.py:85-86 | definition: window `i` spans `[i*L, i*L + L)`; WindowsContiguous, WindowsDisjoint, WindowCovers and WindowUnique state how the windows tile the time line |
| Windows.Clip | src/parser.py:87 | definition: slicing `audio[start:end]` keeps `[min(start, total), min(end, total))`; WindowLength, LastWindowLength and WindowsCoverRecording state what the clipped windows hold |
| Windows.WindowsContiguous | src/parser.py:85-86 | window `i` ends where window `i+1` starts |
| Windows.WindowsDisjoint | src/parser.py:84-86 | an earlier window ends no later than any later window starts |
| Windows.WindowCovers | src/parser.py:84-87 | every instant `t < total` lies in window `t / L`, and that window is among the `n` produced |
| Windows.WindowUnique | src/parser.py:85-86 | an instant lies in no window other than `t / L` |
| Windows.WindowLength | src/parser.py:84-87 | each produced window, clipped to the audio, holds between 1 and `L` ms, and every window but the last holds exactly `L` |
| Windows.LastWindowLength | src/parser.py:84-87 | the last clipped window holds `total - (n-1)*L` ms: the remainder, or `L` when `L` divides `total` |
| Windows.ExportedDurationPrefix | src/parser.py:84-87 | the first `k` clipped windows hold `min(k*L, total)` ms in total |
| Windows.WindowsCoverRecording | src/parser.py:84-87 | the `n` clipped windows together hold exactly `total` ms, covering the recording once |
| Decimal.Render | src/parser.py:90 | `str(n)` is a non-empty all-digit numeral with no leading zero unless `n = 0` |
| Decimal.ParseRender | src/parser.py:90 | reading the rendered numeral back gives `n` |
| Decimal.RenderInjective | src/parser.py:90 | different part numbers render differently |
| Strings.SplitFirst | src/parser.py:33 | `split('.', 1)` unpacked into two names fails exactly when there is no `.`; otherwise the two parts joined around the separator rebuild the name, and the first part has no `.` |
| Strings.SplitFirstOfJoin | src/parser.py:156 | for a `.`-free prefix, splitting `prefix + "." + rest` gives back exactly `prefix` and `rest` |
| Strings.Contains | src/parser.py:141 | definition of Python's `sub in s`: `sub` is a prefix of `s` or occurs in `s` without its first character |
| Strings.Lower | src/parser.py:58 | `lower()` keeps the length, leaves no upper-case letter, keeps every other character and moves each upper-case ASCII letter to its lower-case partner |
| Strings.LowerNeverUpper | src/parser.py:58 | a lower-cased string never equals a string that has an upper-case letter |
| Paths.JoinPrefix | src/parser.py:34-36 | what `os.path.join` puts before a relative name is empty or ends in `/`, and starts with the directory followed by at most one `/`; it is the directory itself when that is empty or already ends in `/` |
| Paths.Join | src/parser.py:34-36 | definition of `os.path.join(a, b)`: an absolute `b` (starting with `/`) replaces `a`; otherwise `b` follows JoinPrefix of `a`; JoinCancel and ExtensionOfJoin state its properties |
| Paths.JoinCancel | src/parser.py:91 | joining two different relative names onto the same directory gives different paths |
| Paths.Extension | src/parser.py:58 | `splitext(p)[1]` is empty or a `.`-initial suffix of `p` with no `/` and no further `.` |
| Paths.ExtensionOfJoin | src/parser.py:56-58 | for a plain name, the extension of `dir/name` is the extension of `name` |
| Paths.ExtensionOfDotted | src/parser.py:58 | a `/`-free name `stem.x`, with `x` free of dots and something other than dots in `stem`, has the extension `.x` |
| FileSystem.MakeDirsIfAbsent | src/parser.py:74-75 | afterwards the directory exists, files are unchanged, only that directory may be added, and nothing changes if it existed |
| FileSystem.LoadAudio | src/parser.py:71 | loading succeeds exactly on a path holding audio and yields its duration; otherwise it fails with a decode error for that path |
| Parser.DescribeFiles | src/parser.py:31-39 | the loop succeeds exactly when every listed regular file has a `.`, fails naming such a file otherwise, and yields at most one tuple per entry |
| Parser.DescribeHead | src/parser.py:32-39 | a regular file at the head of the listing yields the first tuple, built from its prefix before the first `.`, and the rest of the listing yields the rest |
| Parser.DescribeFilesSound | src/parser.py:31-39 | every tuple is `(prefix, src_dir/name, dest_dir/prefix, text_dir/prefix)` for some listed regular file `name` whose prefix before its first `.` is `prefix` |
| Parser.DescribeFilesComplete | src/parser.py:31-39 | every listed regular file is described by some tuple |
| Parser.DescribeFilesAppend | src/parser.py:31-39 | describing the listing `a + b` yields the tuples of `a` followed by those of `b`: listing order is kept |
| Parser.DescribeOne | src/parser.py:32-39 | a single entry yields one tuple describing it when it is a regular file and none otherwise |
| Parser.Discover | src/parser.py:15-43 | a failed `os.listdir` is the only failure besides a `.`-less regular file; success happens exactly when no listed regular file lacks a `.`; each tuple's prefix has no `.`, and its directories are the destination and text roots joined with it |
| Parser.FilterAudio | src/parser.py:55-59 | the kept pairs are exactly `(name, dir/name)` for the listed names that are regular files with the wanted lower-cased extension |
| Parser.FilterAudioAppend | src/parser.py:55-59 | filtering `a + b` is filtering `a` then `b`: lister order is kept |
| Parser.IsAudioFile | src/parser.py:56-58 | definition of the lister's test: `dir/name` is a regular file and its `splitext` extension, lower-cased, equals the requested extension |
| Parser.ListAudioFiles | src/parser.py:46-63 | the lister fails exactly when `os.listdir` does; otherwise a pair is returned iff it is `(name, dir/name)` for a listed regular file whose lower-cased extension is the requested one |
| Parser.ListerCaseSensitiveOnRequest | src/parser.py:58 | only the file side is lower-cased, so asking for an extension with an upper-case letter finds nothing |
| Parser.ListedNameHasDot | src/parser.py:58 | a plain name the lister keeps for a non-empty extension contains a `.` |
| Parser.SegmentName | src/parser.py:90 | definition: `{base}_part_{k}.mp3`, with `k` rendered as `str(k)`; SegmentNamesDistinct and SegmentNameIsAudio state its properties |
| Parser.SegmentPath | src/parser.py:91 | definition: `os.path.join(dest_file_dir, {base}_part_{k}.mp3)`; SegmentPathsDistinct and SegmentPathBelowDir state its properties |
| Parser.SegmentStemsDistinct | src/parser.py:90 | two part numbers with the same `{base}_part_{k}` are equal |
| Parser.SegmentNamesDistinct | src/parser.py:90 | two part numbers with the same `{base}_part_{k}.mp3` are equal |
| Parser.SegmentPathsDistinct | src/parser.py:90-91 | two part numbers with the same target path in `dest_file_dir` are equal |
| Parser.SegmentPathBelowDir | src/parser.py:91 | a target of a relative base is never the destination directory itself |
| Parser.SegmentNameIsAudio | src/parser.py:90-91 | for a `/`-free base, every target `dir/{base}_part_{k}.mp3` has the extension `.mp3` once lower-cased |
| Parser.ListerKeepsSegments | src/parser.py:55-59 | a target that exists as a regular file in the destination directory passes the lister's test |
| Parser.ExportWindows | src/parser.py:84-98 | from window `i` on, directories are untouched, no existing file changes, every target exists afterwards, every new file is a target at whose path no directory sat, and each target that was absent now holds its clipped window |
| Parser.ExportWindowsSkipsExisting | src/parser.py:93-96 | when all remaining targets exist, the loop leaves the file system as it was |
| Parser.SegmentAudio | src/parser.py:66-99 | segmentation succeeds exactly when the recording decodes and the window length is positive; a decode failure changes nothing; it never changes an existing file and adds at most the destination directory, none when that path already exists; on success every target `k = 1..n` exists, every new file is a target and is not a directory, and each absent target holds window `k-1` clipped to the audio |
| Parser.SegmentAudioIdempotent | src/parser.py:93-98 | a second call with the same inputs succeeds and changes nothing |
| Parser.Collapse | src/parser.py:141 | the result never contains `Exception`; it is the text exactly when the text does not contain `Exception`, and `''` otherwise |
| Parser.Transcribe | src/parser.py:102-141 | transcription returns text exactly when the segment decodes and can be opened for recognition; a decode failure raises for the segment's path, and a failure to open it raises `AudioFileFailed` with that path and the failure's detail; the text never contains `Exception` and is `''` or the recognized text; a recognizer exception always yields `''`; recognized text is returned unchanged exactly when it does not contain `Exception` |
| Parser.WriteTranscript | src/parser.py:144-163 | the text directory exists afterwards; a `.`-less name raises without touching files; otherwise the write succeeds exactly when no directory sits at `{dest_text_dir}/{prefix}.txt`, and on success it sets that file to exactly the text, even empty text, and changes no other file |
| Parser.TranscriptPath | src/parser.py:157 | definition: `{dest_text_dir}/{fname}.txt`, built by string formatting and not by `os.path.join`, so a separator is always inserted |
| Parser.TranscriptOfSegment | src/parser.py:156-157 | the segment `{base}_part_{k}.mp3` of a `.`-free base is written to `{base}_part_{k}.txt`, overwriting, and nothing else changes |
| Parser.TranscriptPathsDistinct | src/parser.py:156-157 | different parts of one recording get different transcript paths |
| Prototype.PrototypeName | parser.py:20 | definition: `segment_{k}.mp3`, relative to the working directory |
| Prototype.PrototypeNamesDistinct | parser.py:20 | different part numbers give different `segment_{k}.mp3` names |
| Prototype.ExportAll | parser.py:14-20 | from window `i` to `n`, directories are untouched, every part holds its clipped window whatever file was there, the files afterwards are the old ones plus the parts, and other files keep their content |
| Prototype.FirstBlocked | parser.py:14-20 | the first part after `i` whose name a directory takes, or `n + 1`: no part before it is blocked, and it is blocked when it is at most `n` |
| Prototype.PrototypeSegment | parser.py:3-21 | a decode failure or a zero length raises and changes nothing; no directory is created; the run returns exactly when the recording decodes, the length is positive and no part name is a directory; otherwise the first part whose name is a directory raises `IsADirectoryError`, every part before it holds its clipped window, overwriting, and no other file is touched |
| Prototype.ExportAllAgain | parser.py:14-20 | exporting the same windows again writes only what is already there |
| Prototype.PrototypeRerun | parser.py:3-21 | when neither the recording's path nor any directory starts with `segment_`, the first run returns and a second run returns too, leaving the files as the first run left them |
| App.Directories | app.py:15-18 | the three working directories are `{cwd}/records/`, `{cwd}/output/` and `{cwd}/text/`: each ends in `/`, no two are equal, and a relative name joined onto the output or text directory gives `{cwd}/output/{name}` or `{cwd}/text/{name}` |
| App.SegmentCalls | app.py:24-25 | one segmentation call per descriptor, in discovery order, with its name, source path and destination directory |
| App.PairsShape | app.py:31-36 | each listed segment gets exactly one transcription, immediately followed by one write into the descriptor's text directory, in lister order |
| App.Perform | app.py:21-36 | discovery, listing and transcription calls never change the file system; only segmentation and writing do |
| App.RunsAppend | app.py:24-36 | a run that returns, followed by a run from where it left the file system, is a run of the calls joined |
| App.RunsDeterministic | app.py:24-36 | the calls fix the run's outcome: the final file system and exception |
| App.RunsStopAt | app.py:24-36 | nothing is caught: a run that raised is no strict prefix of another run from the same state, and ends as that run does |
| App.PerformsDeterministic | app.py:15-36 | two outcomes of performing the same calls from the same file system are equal |
| App.SegmentEach | app.py:24-25 | the segmentation loop's calls are a prefix of one call per descriptor, all of them when nothing raised; performing those calls from the starting file system yields the loop's file system and exception; nothing is listed and no existing file changes |
| App.TranscribeSegments | app.py:31-36 | the inner loop's calls are a prefix of the transcribe/write pairs, all of them when nothing raised, and performing them yields the loop's outcome |
| App.TranscribeOne | app.py:29-36 | one outer turn lists the descriptor's segment directory, records what the lister returned, and then makes a prefix of the pairs for exactly those segments, all of them when nothing raised; performing the calls yields the turn's outcome |
| App.TranscribeEach | app.py:28-36 | the second loop nest's calls are a prefix of the listing, transcribe and write calls for the descriptors reached, all of them when nothing raised; performing them yields its outcome, and its listings are those its listing calls recorded |
| App.Stages | app.py:24-36 | after discovery the calls are a prefix of all segmentations followed by the second loop nest, all of it when nothing raised; performing them yields the outcome; the listings are the recorded ones, and nothing is listed while the run stops within the segmentations |
| App.Main | app.py:15-36 | the run first discovers in the three working directories; a discovery failure ends it there with that exception; otherwise its calls are a prefix of all segmentations followed by listing, transcribing and writing per descriptor, all of it when nothing raised; performing the calls from the starting file system yields the run's file system and exception, and the listings are what its listing calls recorded |
| App.MainAfterDiscovery | app.py:21-36 | after a discovery that returns, the run is the discovery call followed by the two loops |
| App.SegmentationComesFirst | app.py:24-29 | the calls after discovery are the segmentations in discovery order, and every listing, transcription and write comes after all of them |
| App.SegmentEachStopsAt | app.py:24-25 | if performing the segmentations of descriptors 0 to `i` raises, at the last of them, the loop makes exactly those calls and ends with their file system and exception |
| App.SegmentationFailureAborts | app.py:24-36 | if segmenting descriptor `i` raises after the earlier ones returned, the run's calls end at that segmentation, its exception and file system are those of the segmentations, and nothing is listed, transcribed or written |
| App.TranscribeEachListsAudio | app.py:28-31 | for each descriptor reached, every listed segment is an `.mp3` file (any letter case) inside that descriptor's segment directory |
| App.ListedAreSegmentAudio | app.py:28-31 | over the whole run, each segment handled for descriptor `i` lies in `ds[i]`'s segment directory and has the `.mp3` extension |
| App.DescriptorDirectories | app.py:16-18 | a discovered recording with a relative base has a `.`-free base, segments under `{cwd}/output/{base}` and transcripts under `{cwd}/text/{base}` |
| App.TranscriptLocation | app.py:36 | part `k` of recording `base` is written to `{cwd}/text/{base}/{base}_part_{k}.txt` unless a directory sits there, and nothing else changes |

## Left out

- Logging and console output (`LOGGER`, `print`, `src/custom_logger.py`). They are side channels with no effect on the files.
- Audio decoding, slicing and export. Audio is a duration in milliseconds, and a window's export stores the clipped duration. The `format="wav"` tag written to a `.mp3` name has no counterpart.
- Parser.SegmentAudio: the window length is a natural number. In the source `segment_length_ms` is any Python int; a negative one makes the floor-division count zero or negative (`720000 // -300000 + 1 == -2`), so the loop runs no times and the call returns after creating the directory. The model cannot express that input. Every call site passes the default 300000.
- Prototype.PrototypeSegment: likewise takes a natural-number length; a negative one makes the prototype return without writing anything, which the model cannot express.
- App.Perform: the recognizer's outcome is fixed per segment path for the whole run, while the source calls `recognize_google` anew for every transcription. The same segment is transcribed twice in a run when two recordings share a base (`talk.mp3` and `talk.v2.mp3` both give `talk`, hence one segment directory, listed by both outer turns); the model then gives both transcriptions the same outcome, where the real recognizer could fail once and succeed once.
- Write failures from the operating system: permissions, a full disk, a missing parent directory. Every `export` and `open(..., 'w')` succeeds unless a directory sits at its path, so Prototype.PrototypeSegment, Parser.SegmentAudio and Parser.WriteTranscript promise success where the real calls could still raise.
- The speech-recognition network call. Its outcome is a parameter of the run: recognized text, an exception inside the `try`, or an exception from `sr.AudioFile` / `record` outside it.
- `os.listdir`. It is a parameter of the run, returning any sequence of names in any order, or failing. Nothing ties a listing to the modelled files, so every property holds for every listing.
- `os.getcwd`. The current directory is a parameter of `Main`.
- `os.makedirs` beyond "the directory now exists". Parent directories are not tracked.
- A segment or text path that already exists as a regular file. The existence test at src/parser.py:74 and src/parser.py:152 then skips `makedirs`; the model's directory set does not relate such a path to later writes beneath it.
- Path normalisation. Paths are compared as strings, so `a//b` and `a/b` are different paths.
- Strings.Lower: only ASCII letters are lower-cased, whereas Python's `str.lower` also maps other Unicode upper-case letters.
- The `isdir` probes and the `raise UnknownValueError` after them (src/parser.py:22-29). The probes never raise, so the handler is unreachable and has no behaviour to model.
- The prototype's module-level call with a placeholder path (parser.py:23-27). It is process wiring.
- The `duration_sec` argument of `transcribe_audio`. It is unused.
- Prototype.PrototypeRerun: asks that neither the recording's path nor any directory start with `segment_`, which is stronger than the exact condition (none of them is a part name). It also compares paths as strings: `./segment_1.mp3` or `{cwd}/segment_1.mp3` is the same file as `segment_1.mp3` yet passes the `segment_` test, so a recording reached through such a path, which the first run overwrites, is not covered.

=== FILE: app.dfy ===
/**
 The driver in app.py: discover the recordings under the working directory,
 segment every one of them, then list, transcribe and write the segments of
 each in turn. A run is modelled by the calls it makes into the stages, in
 order, and by the exception that ended it early, if any; nothing is caught,
 so the first exception ends the run.
 */
module App {
  import opened Results
  import opened Strings
  import opened Decimal
  import opened Paths
  import opened FileSystem
  import opened Parser

  /** The three directories main builds from the current directory. */
  datatype WorkingDirs = WorkingDirs(records: Path, output: Path, text: Path)

  /** `'{cwd}/records/'`, `'{cwd}/output/'` and `'{cwd}/text/'` (a one-argument
      `os.path.join` returns its argument). */
  function Directories(cwd: Path): (w: WorkingDirs)
    ensures EndsWithSlash(w.records) && EndsWithSlash(w.output) && EndsWithSlash(w.text)
    ensures w.records != w.output && w.output != w.text && w.records != w.text
    ensures forall b :: !StartsWithSlash(b) ==> Join(w.output, b) == cwd + "/output/" + b
    ensures forall b :: !StartsWithSlash(b) ==> Join(w.text, b) == cwd + "/text/" + b
  {
    WorkingDirs(cwd + "/records/", cwd + "/output/", cwd + "/text/")
  }

  /** What the run cannot see into: the directory listings and the speech
      recognizer's answer for each segment. */
  datatype Env = Env(listdir: ListDir, hear: Path -> Recognition)

  /** One call from main into src/parser.py, with the arguments it passes. */
  datatype Call =
    | Discovery(srcDir: Path, destDir: Path, textDir: Path)
    | Segmentation(name: string, sourcePath: Path, segmentDir: Path)
    | Listing(dir: Path, found: seq<SegmentFile>)
    | Transcription(name: Name, path: Path)
    | Writing(name: Name, path: Path, textDir: Path)

  /** The calls of the second loop nest. */
  predicate IsTranscriptionStage(c: Call) {
    c.Listing? || c.Transcription? || c.Writing?
  }

  /** A run: the final file system, the calls made (the last one is the one
      that raised, if any), the exception, and for each descriptor reached by
      the second loop the segments its inner loop went over (none when the
      listing itself raised). */
  datatype Run = Run(fs: FS, calls: seq<Call>, raised: Option<Error>, listed: seq<seq<SegmentFile>>)

  // ---------------------------------------------------------------------
  // What a call does

  /** The error a result carries, if any. */
  function Raised<T>(r: Result<T>): Option<Error> {
    if r.Err? then Some(r.error) else None
  }

  /** One call into src/parser.py: the state it leaves and what it raises.
      Only segmenting and writing touch the file system. A write stores the
      text that transcribing the same segment in the same state returns:
      main passes it the result of the transcription just before it, and a
      transcription changes nothing. */
  function Perform(fs: FS, env: Env, c: Call): (s: Step)
    ensures !c.Segmentation? && !c.Writing? ==> s.fs == fs
  {
    match c
    case Discovery(srcDir, destDir, textDir) =>
      Step(fs, Raised(Discover(fs, env.listdir, srcDir, destDir, textDir)))
    case Segmentation(name, sourcePath, segmentDir) =>
      SegmentAudio(fs, name, sourcePath, segmentDir, DefaultSegmentLengthMs)
    case Listing(dir, _) =>
      Step(fs, Raised(ListAudioFiles(fs, env.listdir, dir, AudioExtension)))
    case Transcription(name, path) =>
      Step(fs, Raised(Transcribe(fs, name, path, env.hear(path))))
    case Writing(name, path, textDir) =>
      match Transcribe(fs, name, path, env.hear(path))
      case Err(e) => Step(fs, Some(e))
      case Ok(text) => WriteTranscript(fs, text, name, path, textDir)
  }

  /** A listing call records what the lister returned: its segments, or none
      when it raised. */
  predicate Reports(fs: FS, env: Env, c: Call) {
    c.Listing? ==>
      c.found == match ListAudioFiles(fs, env.listdir, c.dir, AudioExtension)
                 case Ok(segs) => segs
                 case Err(_) => []
  }

  /** Making `calls` in order from `fs` ends in `end`, where `act` says what
      one call does and `sound` whether what a call records is what it got:
      nothing is caught, so a call that raises is the last one and its
      exception the run's, and a run whose every call returns ends where the
      last call left the file system, with nothing raised. */
  predicate Runs(fs: FS, act: (FS, Call) -> Step, sound: (FS, Call) -> bool, calls: seq<Call>, end: Step)
    decreases |calls|
  {
    if calls == [] then end == Step(fs, None)
    else
      var s := act(fs, calls[0]);
      && sound(fs, calls[0])
      && if s.raised.Some? then |calls| == 1 && end == s
         else Runs(s.fs, act, sound, calls[1..], end)
  }

  /** Runs compose: a run that returns, followed by a run from where it
      left the file system. */
  lemma {:induction false} RunsAppend(fs: FS, act: (FS, Call) -> Step, sound: (FS, Call) -> bool,
                                      a: seq<Call>, b: seq<Call>, mid: Step, end: Step)
    requires Runs(fs, act, sound, a, mid) && mid.raised.None?
    requires Runs(mid.fs, act, sound, b, end)
    ensures Runs(fs, act, sound, a + b, end)
    decreases |a|
  {
    if a == [] {
      assert a + b == b;
    } else {
      var s := act(fs, a[0]);
      assert s.raised.None?;
      assert (a + b)[0] == a[0];
      assert (a + b)[1..] == a[1..] + b;
      RunsAppend(s.fs, act, sound, a[1..], b, mid, end);
    }
  }

  /** The calls determine the outcome. */
  lemma {:induction false} RunsDeterministic(fs: FS, act: (FS, Call) -> Step, sound: (FS, Call) -> bool,
                                             calls: seq<Call>, e1: Step, e2: Step)
    requires Runs(fs, act, sound, calls, e1) && Runs(fs, act, sound, calls, e2)
    ensures e1 == e2
    decreases |calls|
  {
    if calls != [] {
      var s := act(fs, calls[0]);
      if s.raised.None? {
        RunsDeterministic(s.fs, act, sound, calls[1..], e1, e2);
      }
    }
  }

  /** A run that raised is not a strict prefix of another run from the same
      state: the call that raised would have ended that one too. */
  lemma {:induction false} RunsStopAt(fs: FS, act: (FS, Call) -> Step, sound: (FS, Call) -> bool,
                                      a: seq<Call>, b: seq<Call>, ea: Step, eb: Step)
    requires Runs(fs, act, sound, a, ea) && Runs(fs, act, sound, b, eb)
    requires IsPrefix(a, b) && ea.raised.Some?
    ensures a == b && ea == eb
    decreases |a|
  {
    if a != [] {
      assert b[0] == a[0];
      var s := act(fs, a[0]);
      if s.raised.None? {
        assert IsPrefix(a[1..], b[1..]);
        RunsStopAt(s.fs, act, sound, a[1..], b[1..], ea, eb);
        assert a == [a[0]] + a[1..] && b == [b[0]] + b[1..];
      } else {
        assert a == [a[0]] && b == [b[0]];
      }
    }
  }

  function Act(env: Env): (FS, Call) -> Step {
    (fs, c) => Perform(fs, env, c)
  }

  function Sound(env: Env): (FS, Call) -> bool {
    (fs, c) => Reports(fs, env, c)
  }

  /** Making `calls` into src/parser.py in order from `fs` ends in `end`. */
  predicate Performs(fs: FS, env: Env, calls: seq<Call>, end: Step) {
    Runs(fs, Act(env), Sound(env), calls, end)
  }

  lemma PerformsOne(fs: FS, env: Env, c: Call)
    requires Reports(fs, env, c)
    ensures Performs(fs, env, [c], Perform(fs, env, c))
  {
    assert [c][1..] == [];
  }

  lemma PerformsAppend(fs: FS, env: Env, a: seq<Call>, b: seq<Call>, mid: Step, end: Step)
    requires Performs(fs, env, a, mid) && mid.raised.None?
    requires Performs(mid.fs, env, b, end)
    ensures Performs(fs, env, a + b, end)
  {
    RunsAppend(fs, Act(env), Sound(env), a, b, mid, end);
  }

  /** What main's calls leave behind is fixed by the calls themselves. */
  lemma PerformsDeterministic(fs: FS, env: Env, calls: seq<Call>, e1: Step, e2: Step)
    requires Performs(fs, env, calls, e1) && Performs(fs, env, calls, e2)
    ensures e1 == e2
  {
    RunsDeterministic(fs, Act(env), Sound(env), calls, e1, e2);
  }

  /** The segments each listing call in `calls` found, in call order. */
  function Found(calls: seq<Call>): seq<seq<SegmentFile>> {
    if calls == [] then []
    else (if calls[0].Listing? then [calls[0].found] else []) + Found(calls[1..])
  }

  lemma {:induction false} FoundAppend(a: seq<Call>, b: seq<Call>)
    ensures Found(a + b) == Found(a) + Found(b)
    decreases |a|
  {
    if a == [] {
      assert a + b == b;
    } else {
      assert (a + b)[0] == a[0];
      assert (a + b)[1..] == a[1..] + b;
      FoundAppend(a[1..], b);
    }
  }

  ghost predicate IsPrefix<T>(a: seq<T>, b: seq<T>) {
    |a| <= |b| && a == b[..|a|]
  }

  lemma PrefixExtend<T>(a: seq<T>, b: seq<T>, c: seq<T>)
    requires IsPrefix(b, c)
    ensures IsPrefix(a + b, a + c)
  {
    assert (a + c)[..|a + b|] == a + c[..|b|];
  }

  // ---------------------------------------------------------------------
  // The calls a run is meant to make

  /** `segment_audio(audio_tuple[0], audio_tuple[1], audio_tuple[2])` */
  function SegmentCall(d: SourceFile): Call {
    Segmentation(d.base, d.sourcePath, d.segmentDir)
  }

  function SegmentCalls(ds: seq<SourceFile>): (cs: seq<Call>)
    ensures |cs| == |ds|
    ensures forall i :: 0 <= i < |ds| ==> cs[i] == SegmentCall(ds[i])
  {
    if ds == [] then [] else [SegmentCall(ds[0])] + SegmentCalls(ds[1..])
  }

  /** The inner loop's calls for the listed segments: a transcription, then
      a write into `textDir`, for each segment in listed order. */
  function Pairs(segs: seq<SegmentFile>, textDir: Path): (cs: seq<Call>)
    ensures forall c :: c in cs ==> c.Transcription? || c.Writing?
  {
    if segs == [] then []
    else [Transcription(segs[0].name, segs[0].path), Writing(segs[0].name, segs[0].path, textDir)]
         + Pairs(segs[1..], textDir)
  }

  /** Exactly one transcription and one write per listed segment, in listed
      order, each write right after the transcription of the same segment. */
  lemma {:induction false} PairsShape(segs: seq<SegmentFile>, textDir: Path)
    ensures |Pairs(segs, textDir)| == 2 * |segs|
    ensures forall i :: 0 <= i < |segs| ==>
              && Pairs(segs, textDir)[2 * i] == Transcription(segs[i].name, segs[i].path)
              && Pairs(segs, textDir)[2 * i + 1] == Writing(segs[i].name, segs[i].path, textDir)
    decreases |segs|
  {
    if segs != [] {
      PairsShape(segs[1..], textDir);
      var ps := Pairs(segs, textDir);
      var rest := Pairs(segs[1..], textDir);
      forall i | 1 <= i < |segs|
        ensures ps[2 * i] == Transcription(segs[i].name, segs[i].path)
        ensures ps[2 * i + 1] == Writing(segs[i].name, segs[i].path, textDir)
      {
        assert ps[2 * i] == rest[2 * (i - 1)];
        assert ps[2 * i + 1] == rest[2 * (i - 1) + 1];
      }
    }
  }

  /** The second loop nest, for descriptors `ds` whose listings went over
      `listed`: per descriptor, a listing of its segment directory, then the
      pairs for its segments with writes into its transcript directory. */
  function Plan(ds: seq<SourceFile>, listed: seq<seq<SegmentFile>>): (cs: seq<Call>)
    requires |listed| <= |ds|
    ensures forall c :: c in cs ==> IsTranscriptionStage(c)
    decreases |listed|
  {
    if listed == [] then []
    else
      [Listing(ds[0].segmentDir, listed[0])] + Pairs(listed[0], ds[0].textDir) + Plan(ds[1..], listed[1..])
  }

  lemma PlanCons(ds: seq<SourceFile>, segs: seq<SegmentFile>, listed: seq<seq<SegmentFile>>)
    requires |listed| < |ds|
    ensures Plan(ds, [segs] + listed)
         == [Listing(ds[0].segmentDir, segs)] + Pairs(segs, ds[0].textDir) + Plan(ds[1..], listed)
  {
    assert ([segs] + listed)[1..] == listed;
  }

  // ---------------------------------------------------------------------
  // The run

  /** The first loop of main: segment every descriptor, stopping at the first
      exception. */
  function SegmentEach(fs: FS, env: Env, ds: seq<SourceFile>): (r: Run)
    ensures r.listed == []
    ensures IsPrefix(r.calls, SegmentCalls(ds))
    ensures r.raised.None? ==> r.calls == SegmentCalls(ds)
    ensures Performs(fs, env, r.calls, Step(r.fs, r.raised))
    ensures Found(r.calls) == []
    ensures KeepsFiles(fs, r.fs)
    decreases |ds|
  {
    if ds == [] then Run(fs, [], None, [])
    else
      var c := SegmentCall(ds[0]);
      var s := Perform(fs, env, c);
      PerformsOne(fs, env, c);
      if s.raised.Some? then
        Run(s.fs, [c], s.raised, [])
      else
        var rest := SegmentEach(s.fs, env, ds[1..]);
        PrefixExtend([c], rest.calls, SegmentCalls(ds[1..]));
        PerformsAppend(fs, env, [c], rest.calls, s, Step(rest.fs, rest.raised));
        FoundAppend([c], rest.calls);
        assert SegmentCalls(ds) == [c] + SegmentCalls(ds[1..]);
        Run(rest.fs, [c] + rest.calls, rest.raised, [])
  }

  /** The inner loop of the second nest: transcribe, then write, each listed
      segment, stopping at the first exception. */
  function TranscribeSegments(fs: FS, env: Env, segs: seq<SegmentFile>, textDir: Path): (r: Run)
    ensures r.listed == []
    ensures IsPrefix(r.calls, Pairs(segs, textDir))
    ensures r.raised.None? ==> r.calls == Pairs(segs, textDir)
    ensures Performs(fs, env, r.calls, Step(r.fs, r.raised))
    ensures Found(r.calls) == []
    decreases |segs|
  {
    if segs == [] then Run(fs, [], None, [])
    else
      var s := segs[0];
      var tc, wc := Transcription(s.name, s.path), Writing(s.name, s.path, textDir);
      var pair := [tc, wc];
      assert Pairs(segs, textDir) == pair + Pairs(segs[1..], textDir);
      var t := Perform(fs, env, tc);
      PerformsOne(fs, env, tc);
      if t.raised.Some? then
        assert Pairs(segs, textDir)[..1] == pair[..1] == [tc];
        Run(fs, [tc], t.raised, [])
      else
        var w := Perform(fs, env, wc);
        PerformsOne(fs, env, wc);
        PerformsAppend(fs, env, [tc], [wc], t, w);
        assert [tc] + [wc] == pair;
        assert Found(pair) == [] by {
          assert pair[1..] == [wc];
          assert [wc][1..] == [];
          assert Found([wc]) == [];
        }
        if w.raised.Some? then
          PrefixExtend(pair, [], Pairs(segs[1..], textDir));
          assert pair + [] == pair;
          Run(w.fs, pair, w.raised, [])
        else
          var rest := TranscribeSegments(w.fs, env, segs[1..], textDir);
          PrefixExtend(pair, rest.calls, Pairs(segs[1..], textDir));
          PerformsAppend(fs, env, pair, rest.calls, w, Step(rest.fs, rest.raised));
          FoundAppend(pair, rest.calls);
          Run(rest.fs, pair + rest.calls, rest.raised, [])
  }

  /** One turn of the outer loop of the second nest: list the segment
      directory of `d` (`audio_tuple[2]`), then run the inner loop with its
      transcript directory (`audio_tuple[3]`). The one entry of `listed` is
      what the listing found. */
  function TranscribeOne(fs: FS, env: Env, d: SourceFile): (r: Run)
    ensures |r.listed| == 1
    ensures IsPrefix(r.calls, [Listing(d.segmentDir, r.listed[0])] + Pairs(r.listed[0], d.textDir))
    ensures r.raised.None? ==> r.calls == [Listing(d.segmentDir, r.listed[0])] + Pairs(r.listed[0], d.textDir)
    ensures Performs(fs, env, r.calls, Step(r.fs, r.raised))
    ensures r.listed == Found(r.calls)
  {
    var segs := match ListAudioFiles(fs, env.listdir, d.segmentDir, AudioExtension)
                case Ok(found) => found
                case Err(_) => [];
    var lc := Listing(d.segmentDir, segs);
    var l := Perform(fs, env, lc);
    PerformsOne(fs, env, lc);
    assert Found([lc]) == [segs];
    if l.raised.Some? then
      assert [lc] == ([lc] + Pairs(segs, d.textDir))[..1];
      Run(fs, [lc], l.raised, [segs])
    else
      var t := TranscribeSegments(fs, env, segs, d.textDir);
      PerformsAppend(fs, env, [lc], t.calls, l, Step(t.fs, t.raised));
      FoundAppend([lc], t.calls);
      PrefixExtend([lc], t.calls, Pairs(segs, d.textDir));
      Run(t.fs, [lc] + t.calls, t.raised, [segs])
  }

  /** The second loop nest of main: one turn per descriptor, stopping at the
      first exception. */
  function TranscribeEach(fs: FS, env: Env, ds: seq<SourceFile>): (r: Run)
    ensures |r.listed| <= |ds|
    ensures IsPrefix(r.calls, Plan(ds, r.listed))
    ensures r.raised.None? ==> |r.listed| == |ds| && r.calls == Plan(ds, r.listed)
    ensures Performs(fs, env, r.calls, Step(r.fs, r.raised))
    ensures r.listed == Found(r.calls)
    ensures ds != [] ==> r.calls != []
    decreases |ds|
  {
    if ds == [] then Run(fs, [], None, [])
    else
      var one := TranscribeOne(fs, env, ds[0]);
      var segs := one.listed[0];
      var block := [Listing(ds[0].segmentDir, segs)] + Pairs(segs, ds[0].textDir);
      if one.raised.Some? then
        PlanCons(ds, segs, []);
        PrefixExtend(block, [], Plan(ds[1..], []));
        assert block + [] == block;
        assert IsPrefix(block, Plan(ds, [segs]));
        assert IsPrefix(one.calls, Plan(ds, [segs]));
        one
      else
        var rest := TranscribeEach(one.fs, env, ds[1..]);
        PrefixExtend(block, rest.calls, Plan(ds[1..], rest.listed));
        PlanCons(ds, segs, rest.listed);
        PerformsAppend(fs, env, block, rest.calls, Step(one.fs, one.raised), Step(rest.fs, rest.raised));
        FoundAppend(block, rest.calls);
        Run(rest.fs, block + rest.calls, rest.raised, [segs] + rest.listed)
  }

  /** get_source_file_names on the three working directories. */
  function Discovered(fs: FS, env: Env, cwd: Path): Result<seq<SourceFile>> {
    var w := Directories(cwd);
    Discover(fs, env.listdir, w.records, w.output, w.text)
  }

  /** Every call main makes after discovery found `ds`, when the listings
      went over `listed`: the segmentations, then the second loop nest. */
  function Planned(ds: seq<SourceFile>, listed: seq<seq<SegmentFile>>): seq<Call>
    requires |listed| <= |ds|
  {
    SegmentCalls(ds) + Plan(ds, listed)
  }

  /** The two loops of main after discovery found `ds`: segment every
      descriptor, then, if none raised, list, transcribe and write. */
  function Stages(fs: FS, env: Env, ds: seq<SourceFile>): (r: Run)
    ensures |r.listed| <= |ds|
    ensures IsPrefix(r.calls, Planned(ds, r.listed))
    ensures r.raised.None? ==> |r.listed| == |ds| && r.calls == Planned(ds, r.listed)
    ensures Performs(fs, env, r.calls, Step(r.fs, r.raised))
    ensures r.listed == Found(r.calls)
    ensures |r.calls| <= |ds| ==> r.listed == []
  {
    var seg := SegmentEach(fs, env, ds);
    if seg.raised.Some? then
      assert Plan(ds, []) == [];
      assert Planned(ds, []) == SegmentCalls(ds);
      Run(seg.fs, seg.calls, seg.raised, [])
    else
      var tr := TranscribeEach(seg.fs, env, ds);
      PrefixExtend(SegmentCalls(ds), tr.calls, Plan(ds, tr.listed));
      PerformsAppend(fs, env, seg.calls, tr.calls, Step(seg.fs, seg.raised), Step(tr.fs, tr.raised));
      FoundAppend(seg.calls, tr.calls);
      Run(tr.fs, seg.calls + tr.calls, tr.raised, tr.listed)
  }

  /** main: discovery, then the segmentation loop, then the transcription
      loop nest, every stage with the defaults of src/parser.py. The run is
      the calls main makes, performed in order until one raises, and the
      listings it records are the lister's answers. */
  function Main(fs: FS, env: Env, cwd: Path): (r: Run)
    ensures var w := Directories(cwd);
            var discovered := Discovered(fs, env, cwd);
            && r.calls != []
            && r.calls[0] == Discovery(w.records, w.output, w.text)
            && Performs(fs, env, r.calls, Step(r.fs, r.raised))
            && r.listed == Found(r.calls)
            && (discovered.Err? ==> r == Run(fs, [r.calls[0]], Some(discovered.error), []))
            && (discovered.Ok? ==>
                  var ds := discovered.value;
                  && |r.listed| <= |ds|
                  && IsPrefix(r.calls, [r.calls[0]] + Planned(ds, r.listed))
                  && (r.raised.None? ==> |r.listed| == |ds| && r.calls == [r.calls[0]] + Planned(ds, r.listed)))
  {
    var w := Directories(cwd);
    var discovery := Discovery(w.records, w.output, w.text);
    var s := Perform(fs, env, discovery);
    PerformsOne(fs, env, discovery);
    match Discovered(fs, env, cwd)
    case Err(e) => Run(fs, [discovery], Some(e), [])
    case Ok(ds) =>
      var st := Stages(fs, env, ds);
      PrefixExtend([discovery], st.calls, Planned(ds, st.listed));
      PerformsAppend(fs, env, [discovery], st.calls, s, Step(st.fs, st.raised));
      FoundAppend([discovery], st.calls);
      Run(st.fs, [discovery] + st.calls, st.raised, st.listed)
  }

  // ---------------------------------------------------------------------
  // Properties of a run

  /** Every recording is segmented before any segment is listed: the calls
      after discovery are the segmentations in discovery order, and every
      call of the second loop nest comes after all of them. */
  lemma SegmentationComesFirst(fs: FS, env: Env, cwd: Path)
    requires Discovered(fs, env, cwd).Ok?
    ensures var ds := Discovered(fs, env, cwd).value;
            var r := Main(fs, env, cwd);
            && (forall i :: 0 <= i < |ds| && 1 + i < |r.calls| ==> r.calls[1 + i] == SegmentCall(ds[i]))
            && (forall j :: 0 <= j < |r.calls| && IsTranscriptionStage(r.calls[j]) ==> j > |ds|)
  {
    var ds := Discovered(fs, env, cwd).value;
    var r := Main(fs, env, cwd);
    var full := [r.calls[0]] + Planned(ds, r.listed);
    assert r.calls == full[..|r.calls|];
    forall j | 0 <= j < |r.calls| && j <= |ds|
      ensures r.calls[j] == if j == 0 then r.calls[0] else SegmentCall(ds[j - 1])
    {
      assert r.calls[j] == full[j];
      if j > 0 {
        assert full[j] == Planned(ds, r.listed)[j - 1] == SegmentCalls(ds)[j - 1];
      }
    }
  }

  lemma OnlySegmentations(first: Call, ds: seq<SourceFile>)
    requires first.Discovery?
    ensures forall c :: c in [first] + SegmentCalls(ds) ==> !IsTranscriptionStage(c)
  {
    var cs := SegmentCalls(ds);
    forall c | c in [first] + cs ensures !IsTranscriptionStage(c) {
      if c != first {
        var j :| 0 <= j < |cs| && cs[j] == c;
      }
    }
  }

  /** After a discovery that returns, main is its two loops. */
  lemma MainAfterDiscovery(fs: FS, env: Env, cwd: Path)
    requires Discovered(fs, env, cwd).Ok?
    ensures var w := Directories(cwd);
            var st := Stages(fs, env, Discovered(fs, env, cwd).value);
            Main(fs, env, cwd) == Run(st.fs, [Discovery(w.records, w.output, w.text)] + st.calls, st.raised, st.listed)
  {
  }

  /** The segmentations of a stretch of descriptors are that stretch of
      the segmentations. */
  lemma SegmentCallsPrefix(ds: seq<SourceFile>, k: nat)
    requires k <= |ds|
    ensures SegmentCalls(ds[..k]) == SegmentCalls(ds)[..k]
  {
  }

  /** The segmentation loop stops at the first call that raises: if making
      the segmentations of descriptors 0 to `i` in order raises, at the last
      of them, the loop makes exactly those calls and ends as they do. */
  lemma SegmentEachStopsAt(fs: FS, env: Env, ds: seq<SourceFile>, i: nat, e: Step)
    requires i < |ds|
    requires Performs(fs, env, SegmentCalls(ds[..i + 1]), e) && e.raised.Some?
    ensures SegmentEach(fs, env, ds) == Run(e.fs, SegmentCalls(ds[..i + 1]), e.raised, [])
  {
    var r := SegmentEach(fs, env, ds);
    var q := SegmentCalls(ds[..i + 1]);
    SegmentCallsPrefix(ds, i + 1);
    PrefixesAgree(q, r.calls, SegmentCalls(ds));
    if IsPrefix(q, r.calls) {
      RunsStopAt(fs, Act(env), Sound(env), q, r.calls, e, Step(r.fs, r.raised));
    } else {
      RunsStopAt(fs, Act(env), Sound(env), r.calls, q, Step(r.fs, r.raised), e);
    }
  }

  /** Two prefixes of one sequence: the shorter is a prefix of the longer. */
  lemma PrefixesAgree<T>(a: seq<T>, b: seq<T>, c: seq<T>)
    requires IsPrefix(a, c) && IsPrefix(b, c)
    ensures IsPrefix(a, b) || IsPrefix(b, a)
  {
    if |a| <= |b| {
      assert b[..|a|] == c[..|a|];
    } else {
      assert a[..|b|] == c[..|b|];
    }
  }

  /** If making the segmentations of descriptors 0 to `i` in order raises,
      at the last of them, the run ends right there: its calls are discovery
      and those segmentations, its exception and file system are theirs, and
      nothing is listed, transcribed or written. */
  lemma SegmentationFailureAborts(fs: FS, env: Env, cwd: Path, i: nat, e: Step)
    requires Discovered(fs, env, cwd).Ok?
    requires i < |Discovered(fs, env, cwd).value|
    requires Performs(fs, env, SegmentCalls(Discovered(fs, env, cwd).value[..i + 1]), e) && e.raised.Some?
    ensures var ds := Discovered(fs, env, cwd).value;
            var r := Main(fs, env, cwd);
            && r.calls == [r.calls[0]] + SegmentCalls(ds[..i + 1])
            && r.raised == e.raised && r.fs == e.fs
            && r.listed == []
            && forall c :: c in r.calls ==> !IsTranscriptionStage(c)
  {
    var ds := Discovered(fs, env, cwd).value;
    var r := Main(fs, env, cwd);
    MainAfterDiscovery(fs, env, cwd);
    SegmentEachStopsAt(fs, env, ds, i, e);
    var cs := SegmentCalls(ds[..i + 1]);
    assert Stages(fs, env, ds) == Run(e.fs, cs, e.raised, []);
    OnlySegmentations(r.calls[0], ds[..i + 1]);
  }

  /** For each descriptor `i` reached, the segments listed for it are `.mp3`
      files (in any letter case) inside `ds[i]`'s segment directory. */
  predicate ListedUnder(ds: seq<SourceFile>, listed: seq<seq<SegmentFile>>) {
    forall i, s :: 0 <= i < |listed| && i < |ds| && s in listed[i] ==>
      s.path == Join(ds[i].segmentDir, s.name) && Lower(Extension(s.path)) == AudioExtension
  }

  /** The second loop nest only ever lists audio files of the segment
      directory of the descriptor at hand. */
  lemma {:induction false} TranscribeEachListsAudio(fs: FS, env: Env, ds: seq<SourceFile>)
    ensures ListedUnder(ds, TranscribeEach(fs, env, ds).listed)
    decreases |ds|
  {
    if ds != [] {
      var d := ds[0];
      var r := TranscribeEach(fs, env, ds);
      match ListAudioFiles(fs, env.listdir, d.segmentDir, AudioExtension)
      case Err(_) =>
      case Ok(segs) =>
        var t := TranscribeSegments(fs, env, segs, d.textDir);
        if t.raised.None? {
          var rest := TranscribeEach(t.fs, env, ds[1..]);
          TranscribeEachListsAudio(t.fs, env, ds[1..]);
          assert r.listed == [segs] + rest.listed;
          forall i, s | 0 <= i < |r.listed| && i < |ds| && s in r.listed[i]
            ensures s.path == Join(ds[i].segmentDir, s.name) && Lower(Extension(s.path)) == AudioExtension
          {
            if i > 0 {
              assert r.listed[i] == rest.listed[i - 1];
              assert ds[i] == ds[1..][i - 1];
            }
          }
        }
    }
  }

  /** Over the whole run: every segment transcribed for descriptor `i` was
      found in `ds[i]`'s segment directory and carries the audio extension. */
  lemma ListedAreSegmentAudio(fs: FS, env: Env, cwd: Path)
    requires Discovered(fs, env, cwd).Ok?
    ensures ListedUnder(Discovered(fs, env, cwd).value, Main(fs, env, cwd).listed)
  {
    var ds := Discovered(fs, env, cwd).value;
    var seg := SegmentEach(fs, env, ds);
    if seg.raised.None? {
      TranscribeEachListsAudio(seg.fs, env, ds);
    }
    assert Main(fs, env, cwd).listed == Stages(fs, env, ds).listed;
  }

  /** For a recording `{base}.{ext}` found under `{cwd}/records/`, its segments
      go to `{cwd}/output/{base}` and its transcripts to `{cwd}/text/{base}`. */
  lemma DescriptorDirectories(fs: FS, env: Env, cwd: Path, d: SourceFile)
    requires Discovered(fs, env, cwd).Ok? && d in Discovered(fs, env, cwd).value
    requires !StartsWithSlash(d.base)
    ensures '.' !in d.base
    ensures d.segmentDir == cwd + "/output/" + d.base
    ensures d.textDir == cwd + "/text/" + d.base
  {
    var w := Directories(cwd);
    assert EndsWithSlash(w.output) && EndsWithSlash(w.text);
  }

  /** Part `k` of recording `base` is transcribed to
      `{cwd}/text/{base}/{base}_part_{k}.txt`, unless a directory sits at that
      path; only that file changes. */
  lemma TranscriptLocation(fs: FS, env: Env, cwd: Path, d: SourceFile, k: nat, now: FS, text: string, path: Path)
    requires Discovered(fs, env, cwd).Ok? && d in Discovered(fs, env, cwd).value
    requires !StartsWithSlash(d.base)
    ensures var r := WriteTranscript(now, text, SegmentName(d.base, k), path, d.textDir);
            var tp := cwd + "/text/" + d.base + "/" + d.base + "_part_" + Render(k) + ".txt";
            && (r.raised.None? <==> tp !in now.dirs)
            && (r.raised.None? ==> WroteOnly(now, r.fs, tp, Text(text)))
  {
    DescriptorDirectories(fs, env, cwd, d);
    TranscriptOfSegment(now, text, d.base, k, path, d.textDir);
    TranscriptPathSpelled(cwd, d.base, k);
  }

  lemma TranscriptPathSpelled(cwd: Path, base: string, k: nat)
    ensures TranscriptPath(cwd + "/text/" + base, SegmentStem(base, k))
         == cwd + "/text/" + base + "/" + base + "_part_" + Render(k) + ".txt"
  {
  }
}

=== FILE: decimal.dfy ===
/**
 Python's `str(n)` for a natural number `n`, the rendering used in the
 `{i + 1}` of every segment name, and its inverse.
 */
module Decimal {

  predicate IsDigit(c: char) {
    '0' <= c <= '9'
  }

  predicate AllDigits(s: string) {
    forall i :: 0 <= i < |s| ==> IsDigit(s[i])
  }

  function DigitChar(d: nat): (c: char)
    requires d < 10
    ensures IsDigit(c)
  {
    (d + '0' as int) as char
  }

  function DigitValue(c: char): (d: nat)
    requires IsDigit(c)
    ensures d < 10
  {
    c as int - '0' as int
  }

  /** `str(n)`: the shortest decimal numeral for `n`, with no sign and no
      leading zero. */
  function Render(n: nat): (s: string)
    ensures 1 <= |s|
    ensures AllDigits(s)
    ensures s[0] == '0' ==> n == 0
    decreases n
  {
    if n < 10 then [DigitChar(n)] else Render(n / 10) + [DigitChar(n % 10)]
  }

  /** The value a decimal numeral denotes, most significant digit first. */
  function Parse(s: string): nat
    requires AllDigits(s)
    decreases |s|
  {
    if |s| == 0 then 0 else Parse(s[..|s| - 1]) * 10 + DigitValue(s[|s| - 1])
  }

  lemma {:induction false} ParseRender(n: nat)
    ensures Parse(Render(n)) == n
    decreases n
  {
    if n >= 10 {
      var s := Render(n);
      assert s[..|s| - 1] == Render(n / 10);
      ParseRender(n / 10);
      assert DigitValue(DigitChar(n % 10)) == n % 10;
    }
  }

  /** Different numbers render differently, so names that differ only in
      their `{k}` differ. */
  lemma RenderInjective(a: nat, b: nat)
    ensures Render(a) == Render(b) ==> a == b
  {
    ParseRender(a);
    ParseRender(b);
  }

  lemma RenderHasNo(n: nat, c: char)
    requires !IsDigit(c)
    ensures c !in Render(n)
  {
  }
}

=== FILE: filesystem.dfy ===
/**
 The file system the pipeline reads and writes, reduced to what its logic
 observes: which paths hold files (and what they hold) and which are
 directories. Audio is reduced to its duration in milliseconds.
 */
module FileSystem {
  import opened Results
  import opened Paths

  datatype Content = Audio(durationMs: nat) | Text(body: string)

  datatype FS = FS(files: map<Path, Content>, dirs: set<Path>)

  /** The state after a side-effecting call, and the exception it raised, if
      any. Effects made before the exception (a created directory) are kept. */
  datatype Step = Step(fs: FS, raised: Option<Error>)

  /** `os.path.exists(p)` */
  predicate Exists(fs: FS, p: Path) {
    p in fs.files || p in fs.dirs
  }

  /** `os.path.isfile(p)` */
  predicate IsFile(fs: FS, p: Path) {
    p in fs.files
  }

  /** Every file of `fs` is still in `fs'`, with the same content. */
  predicate KeepsFiles(fs: FS, fs': FS) {
    forall p :: p in fs.files ==> p in fs'.files && fs'.files[p] == fs.files[p]
  }

  /** `if not os.path.exists(d): os.makedirs(d)`; parents are not tracked. */
  function MakeDirsIfAbsent(fs: FS, d: Path): (r: FS)
    ensures Exists(r, d)
    ensures r.files == fs.files
    ensures fs.dirs <= r.dirs <= fs.dirs + {d}
    ensures Exists(fs, d) ==> r == fs
  {
    if Exists(fs, d) then fs else fs.(dirs := fs.dirs + {d})
  }

  /** `len(AudioSegment.from_mp3(p))`: the duration of the audio held at `p`;
      anything else (no file, a directory, a text file) fails to decode. */
  function LoadAudio(fs: FS, p: Path): (r: Result<nat>)
    ensures r.Ok? <==> p in fs.files && fs.files[p].Audio?
    ensures r.Ok? ==> r.value == fs.files[p].durationMs
    ensures r.Err? ==> r.error == DecodeFailed(p)
  {
    if p in fs.files && fs.files[p].Audio? then Ok(fs.files[p].durationMs) else Err(DecodeFailed(p))
  }
}

=== FILE: parser.dfy ===
/**
 The pipeline's stages as written in src/parser.py: discovery of the source
 recordings, idempotent segmentation, the segment lister, the collapsing of
 a recognition outcome into transcript text, and the transcript writer.
 */
module Parser {
  import opened Results
  import opened Strings
  import opened Decimal
  import opened Paths
  import opened FileSystem
  import opened Windows

  /** `segment_length_ms=300000`: five minutes. */
  const DefaultSegmentLengthMs: nat := 300000

  /** `file_extension=".mp3"`, also the suffix given to every segment. */
  const AudioExtension: string := ".mp3"

  /** `os.listdir`: the entries of a directory in whatever order the system
      gives them, or `None` where the call raises. */
  type ListDir = (FS, Path) -> Option<seq<Name>>

  // ---------------------------------------------------------------------
  // get_source_file_names

  /** One `(src_fname, src_fpath, dest_fdir, text_path)` tuple. */
  datatype SourceFile = SourceFile(base: string, sourcePath: Path, segmentDir: Path, textDir: Path)

  /** `n` is `base`, a `.`, and the rest, with `base` free of dots: `base` is
      what precedes the first `.` of `n`. */
  predicate IsBaseOf(base: string, n: Name) {
    '.' !in base && |base| < |n| && n[..|base|] == base && n[|base|] == '.'
  }

  /** `d` is the tuple built for the listed file `n`. */
  predicate Describes(srcDir: Path, destDir: Path, textDir: Path, n: Name, d: SourceFile) {
    && IsBaseOf(d.base, n)
    && d.sourcePath == Join(srcDir, n)
    && d.segmentDir == Join(destDir, d.base)
    && d.textDir == Join(textDir, d.base)
  }

  /** The loop of get_source_file_names over the listed `names`: a regular
      file yields a tuple, anything else is passed over, and a regular file
      without a `.` makes the two-name unpacking raise. */
  function DescribeFiles(fs: FS, srcDir: Path, destDir: Path, textDir: Path, names: seq<Name>)
    : (r: Result<seq<SourceFile>>)
    ensures r.Ok? <==> forall n :: n in names && IsFile(fs, Join(srcDir, n)) ==> '.' in n
    ensures r.Err? ==> exists n :: n in names && IsFile(fs, Join(srcDir, n)) && '.' !in n && r.error == NoExtensionSeparator(n)
    ensures r.Ok? ==> |r.value| <= |names|
    decreases |names|
  {
    if names == [] then Ok([])
    else
      var n := names[0];
      if !IsFile(fs, Join(srcDir, n)) then
        DescribeFiles(fs, srcDir, destDir, textDir, names[1..])
      else
        match SplitFirst(n, '.')
        case None => Err(NoExtensionSeparator(n))
        case Some(parts) =>
          var base := parts.0;
          assert IsBaseOf(base, n) by {
            assert n == base + ['.'] + parts.1;
            assert n[..|base|] == base;
          }
          var d := SourceFile(base, Join(srcDir, n), Join(destDir, base), Join(textDir, base));
          match DescribeFiles(fs, srcDir, destDir, textDir, names[1..])
          case Err(e) => Err(e)
          case Ok(ds) => Ok([d] + ds)
  }

  /** The tuple built for a regular file `n` at the head of the listing. */
  lemma DescribeHead(fs: FS, srcDir: Path, destDir: Path, textDir: Path, names: seq<Name>)
    requires names != [] && IsFile(fs, Join(srcDir, names[0]))
    requires DescribeFiles(fs, srcDir, destDir, textDir, names).Ok?
    ensures var ds := DescribeFiles(fs, srcDir, destDir, textDir, names).value;
            && DescribeFiles(fs, srcDir, destDir, textDir, names[1..]).Ok?
            && ds != []
            && Describes(srcDir, destDir, textDir, names[0], ds[0])
            && ds[1..] == DescribeFiles(fs, srcDir, destDir, textDir, names[1..]).value
  {
    var n := names[0];
    var parts := SplitFirst(n, '.').value;
    assert n == parts.0 + ['.'] + parts.1;
    assert n[..|parts.0|] == parts.0;
  }

  /** Every tuple describes a listed regular file. */
  lemma {:induction false} DescribeFilesSound(fs: FS, srcDir: Path, destDir: Path, textDir: Path, names: seq<Name>)
    requires DescribeFiles(fs, srcDir, destDir, textDir, names).Ok?
    ensures forall d :: d in DescribeFiles(fs, srcDir, destDir, textDir, names).value ==>
              exists n :: n in names && IsFile(fs, Join(srcDir, n)) && Describes(srcDir, destDir, textDir, n, d)
    decreases |names|
  {
    if names != [] {
      var ds := DescribeFiles(fs, srcDir, destDir, textDir, names).value;
      var rest := DescribeFiles(fs, srcDir, destDir, textDir, names[1..]);
      assert rest.Ok?;
      DescribeFilesSound(fs, srcDir, destDir, textDir, names[1..]);
      assert forall m :: m in names[1..] ==> m in names;
      if IsFile(fs, Join(srcDir, names[0])) {
        DescribeHead(fs, srcDir, destDir, textDir, names);
        assert ds == [ds[0]] + rest.value;
      } else {
        assert ds == rest.value;
      }
    }
  }

  /** Every listed regular file is described by some tuple. */
  lemma {:induction false} DescribeFilesComplete(fs: FS, srcDir: Path, destDir: Path, textDir: Path, names: seq<Name>)
    requires DescribeFiles(fs, srcDir, destDir, textDir, names).Ok?
    ensures forall n :: n in names && IsFile(fs, Join(srcDir, n)) ==>
              exists d :: d in DescribeFiles(fs, srcDir, destDir, textDir, names).value && Describes(srcDir, destDir, textDir, n, d)
    decreases |names|
  {
    if names != [] {
      var n := names[0];
      var ds := DescribeFiles(fs, srcDir, destDir, textDir, names).value;
      var rest := DescribeFiles(fs, srcDir, destDir, textDir, names[1..]);
      assert rest.Ok?;
      DescribeFilesComplete(fs, srcDir, destDir, textDir, names[1..]);
      if IsFile(fs, Join(srcDir, n)) {
        DescribeHead(fs, srcDir, destDir, textDir, names);
        assert ds == [ds[0]] + rest.value;
      } else {
        assert ds == rest.value;
      }
      forall m | m in names && IsFile(fs, Join(srcDir, m))
        ensures exists d :: d in ds && Describes(srcDir, destDir, textDir, m, d)
      {
        if m != n {
          assert m in names[1..];
        } else {
          assert ds[0] in ds;
        }
      }
    }
  }

  /** What the loop contributes for one listed name when the listing as a
      whole describes without error. */
  function Lead(fs: FS, srcDir: Path, destDir: Path, textDir: Path, n: Name): seq<SourceFile> {
    if !IsFile(fs, Join(srcDir, n)) then []
    else match SplitFirst(n, '.')
      case None => []
      case Some(parts) => [SourceFile(parts.0, Join(srcDir, n), Join(destDir, parts.0), Join(textDir, parts.0))]
  }

  /** One step of the loop, stated without reopening its body. */
  lemma DescribeUnfold(fs: FS, srcDir: Path, destDir: Path, textDir: Path, names: seq<Name>)
    requires names != [] && DescribeFiles(fs, srcDir, destDir, textDir, names).Ok?
    ensures DescribeFiles(fs, srcDir, destDir, textDir, names[1..]).Ok?
    ensures DescribeFiles(fs, srcDir, destDir, textDir, names).value
         == Lead(fs, srcDir, destDir, textDir, names[0]) + DescribeFiles(fs, srcDir, destDir, textDir, names[1..]).value
  {
  }

  /** The tuples come out in listing order, one block per stretch of the
      listing: describing `a + b` is describing `a`, then `b`. */
  lemma {:induction false} DescribeFilesAppend(fs: FS, srcDir: Path, destDir: Path, textDir: Path, a: seq<Name>, b: seq<Name>)
    requires DescribeFiles(fs, srcDir, destDir, textDir, a + b).Ok?
    ensures DescribeFiles(fs, srcDir, destDir, textDir, a).Ok?
    ensures DescribeFiles(fs, srcDir, destDir, textDir, b).Ok?
    ensures DescribeFiles(fs, srcDir, destDir, textDir, a + b).value
         == DescribeFiles(fs, srcDir, destDir, textDir, a).value + DescribeFiles(fs, srcDir, destDir, textDir, b).value
    decreases |a|
  {
    DescribeFilesOkSplit(fs, srcDir, destDir, textDir, a, b);
    if a == [] {
      assert a + b == b;
    } else {
      DescribeTailOk(fs, srcDir, destDir, textDir, a, b);
      DescribeFilesAppend(fs, srcDir, destDir, textDir, a[1..], b);
      DescribeAppendStep(fs, srcDir, destDir, textDir, a, b);
    }
  }

  /** If describing `a + b` succeeds, so does describing all of it but the head. */
  lemma DescribeTailOk(fs: FS, srcDir: Path, destDir: Path, textDir: Path, a: seq<Name>, b: seq<Name>)
    requires a != [] && DescribeFiles(fs, srcDir, destDir, textDir, a + b).Ok?
    ensures DescribeFiles(fs, srcDir, destDir, textDir, a[1..] + b).Ok?
  {
    assert (a + b)[1..] == a[1..] + b;
    DescribeUnfold(fs, srcDir, destDir, textDir, a + b);
  }

  /** One turn of the induction above: the head of `a` leads both results. */
  lemma DescribeAppendStep(fs: FS, srcDir: Path, destDir: Path, textDir: Path, a: seq<Name>, b: seq<Name>)
    requires a != [] && DescribeFiles(fs, srcDir, destDir, textDir, a + b).Ok?
    requires DescribeFiles(fs, srcDir, destDir, textDir, a).Ok? && DescribeFiles(fs, srcDir, destDir, textDir, b).Ok?
    requires DescribeFiles(fs, srcDir, destDir, textDir, a[1..]).Ok?
    requires DescribeFiles(fs, srcDir, destDir, textDir, a[1..] + b).Ok?
    requires DescribeFiles(fs, srcDir, destDir, textDir, a[1..] + b).value
          == DescribeFiles(fs, srcDir, destDir, textDir, a[1..]).value + DescribeFiles(fs, srcDir, destDir, textDir, b).value
    ensures DescribeFiles(fs, srcDir, destDir, textDir, a + b).value
         == DescribeFiles(fs, srcDir, destDir, textDir, a).value + DescribeFiles(fs, srcDir, destDir, textDir, b).value
  {
    var ab := a + b;
    assert ab[0] == a[0];
    assert ab[1..] == a[1..] + b;
    DescribeUnfold(fs, srcDir, destDir, textDir, ab);
    DescribeUnfold(fs, srcDir, destDir, textDir, a);
    AppendAssoc(Lead(fs, srcDir, destDir, textDir, a[0]),
                DescribeFiles(fs, srcDir, destDir, textDir, a[1..]).value,
                DescribeFiles(fs, srcDir, destDir, textDir, b).value);
  }

  /** Concatenation regroups freely. */
  lemma AppendAssoc<T>(x: seq<T>, y: seq<T>, z: seq<T>)
    ensures x + (y + z) == (x + y) + z
  {
  }

  /** Describing `a + b` succeeds only if describing each part does. */
  lemma DescribeFilesOkSplit(fs: FS, srcDir: Path, destDir: Path, textDir: Path, a: seq<Name>, b: seq<Name>)
    requires DescribeFiles(fs, srcDir, destDir, textDir, a + b).Ok?
    ensures DescribeFiles(fs, srcDir, destDir, textDir, a).Ok?
    ensures DescribeFiles(fs, srcDir, destDir, textDir, b).Ok?
  {
    assert forall n :: n in a ==> n in a + b;
    assert forall n :: n in b ==> n in a + b;
  }

  /** A single listed entry yields one tuple if it is a regular file, none
      otherwise; together with the lemma above this fixes the whole result. */
  lemma DescribeOne(fs: FS, srcDir: Path, destDir: Path, textDir: Path, n: Name)
    requires DescribeFiles(fs, srcDir, destDir, textDir, [n]).Ok?
    ensures var ds := DescribeFiles(fs, srcDir, destDir, textDir, [n]).value;
            if IsFile(fs, Join(srcDir, n)) then |ds| == 1 && Describes(srcDir, destDir, textDir, n, ds[0])
            else ds == []
  {
    assert [n][1..] == [];
  }

  /** get_source_file_names: the three `isdir` probes have no effect, so the
      only failures are the listing itself and a regular file without a `.`. */
  function Discover(fs: FS, listdir: ListDir, srcDir: Path, destDir: Path, textDir: Path)
    : (r: Result<seq<SourceFile>>)
    ensures listdir(fs, srcDir).None? ==> r == Err(ListDirFailed(srcDir))
    ensures listdir(fs, srcDir).Some? ==>
              var names := listdir(fs, srcDir).value;
              && (r.Ok? <==> forall n :: n in names && IsFile(fs, Join(srcDir, n)) ==> '.' in n)
              && (r.Err? ==> exists n :: n in names && IsFile(fs, Join(srcDir, n)) && '.' !in n && r.error == NoExtensionSeparator(n))
    ensures r.Ok? ==> forall d :: d in r.value ==>
              '.' !in d.base && d.segmentDir == Join(destDir, d.base) && d.textDir == Join(textDir, d.base)
  {
    match listdir(fs, srcDir)
    case None => Err(ListDirFailed(srcDir))
    case Some(names) =>
      var r := DescribeFiles(fs, srcDir, destDir, textDir, names);
      if r.Ok? then DescribeFilesSound(fs, srcDir, destDir, textDir, names); r else r
  }

  // ---------------------------------------------------------------------
  // get_all_audio_files_in_dir

  /** One `(file_name, file_path)` pair. */
  datatype SegmentFile = SegmentFile(name: Name, path: Path)

  /** The lister's test: a regular file whose extension, lower-cased, is
      `ext`. Only the file's side is lower-cased. */
  predicate IsAudioFile(fs: FS, dir: Path, ext: string, n: Name) {
    IsFile(fs, Join(dir, n)) && Lower(Extension(Join(dir, n))) == ext
  }

  function FilterAudio(fs: FS, dir: Path, ext: string, names: seq<Name>): (r: seq<SegmentFile>)
    ensures |r| <= |names|
    ensures forall s :: s in r ==> s.name in names && s.path == Join(dir, s.name) && IsAudioFile(fs, dir, ext, s.name)
    ensures forall n :: n in names && IsAudioFile(fs, dir, ext, n) ==> SegmentFile(n, Join(dir, n)) in r
    decreases |names|
  {
    if names == [] then []
    else
      var rest := FilterAudio(fs, dir, ext, names[1..]);
      if IsAudioFile(fs, dir, ext, names[0]) then [SegmentFile(names[0], Join(dir, names[0]))] + rest else rest
  }

  /** The lister keeps listing order: filtering `a + b` is filtering `a`,
      then `b`. */
  lemma {:induction false} FilterAudioAppend(fs: FS, dir: Path, ext: string, a: seq<Name>, b: seq<Name>)
    ensures FilterAudio(fs, dir, ext, a + b) == FilterAudio(fs, dir, ext, a) + FilterAudio(fs, dir, ext, b)
    decreases |a|
  {
    if a != [] {
      assert (a + b)[0] == a[0];
      assert (a + b)[1..] == a[1..] + b;
      FilterAudioAppend(fs, dir, ext, a[1..], b);
    } else {
      assert a + b == b;
    }
  }

  /** get_all_audio_files_in_dir: a missing directory makes `os.listdir`
      raise; it does not yield an empty list. */
  function ListAudioFiles(fs: FS, listdir: ListDir, dir: Path, ext: string): (r: Result<seq<SegmentFile>>)
    ensures r.Err? <==> listdir(fs, dir).None?
    ensures r.Err? ==> r.error == ListDirFailed(dir)
    ensures r.Ok? ==> forall s :: s in r.value <==>
              s.name in listdir(fs, dir).value && s.path == Join(dir, s.name) && IsAudioFile(fs, dir, ext, s.name)
  {
    match listdir(fs, dir)
    case None => Err(ListDirFailed(dir))
    case Some(names) => Ok(FilterAudio(fs, dir, ext, names))
  }

  /** Only the file side is lower-cased: asked for an extension that holds an
      upper-case letter, the lister finds nothing. */
  lemma ListerCaseSensitiveOnRequest(fs: FS, listdir: ListDir, dir: Path, ext: string)
    requires exists i :: 0 <= i < |ext| && IsUpper(ext[i])
    ensures ListAudioFiles(fs, listdir, dir, ext).Ok? ==> ListAudioFiles(fs, listdir, dir, ext).value == []
  {
    if listdir(fs, dir).Some? {
      FilterNothing(fs, dir, ext, listdir(fs, dir).value);
    }
  }

  /** No name passes a filter asking for an extension with an upper-case letter. */
  lemma {:induction false} FilterNothing(fs: FS, dir: Path, ext: string, names: seq<Name>)
    requires exists i :: 0 <= i < |ext| && IsUpper(ext[i])
    ensures FilterAudio(fs, dir, ext, names) == []
    decreases |names|
  {
    if names != [] {
      LowerNeverUpper(Extension(Join(dir, names[0])), ext);
      FilterNothing(fs, dir, ext, names[1..]);
    }
  }

  /** A listed `.mp3` entry whose name is a plain name has a `.` in it, so
      the transcript writer's split cannot raise on it. */
  lemma ListedNameHasDot(fs: FS, dir: Path, ext: string, n: Name)
    requires IsAudioFile(fs, dir, ext, n)
    requires ext != "" && '/' !in n
    ensures '.' in n
  {
    ExtensionOfJoin(dir, n);
    var e := Extension(n);
    assert e != "";
    assert n[|n| - |e|] == e[0] == '.';
  }

  // ---------------------------------------------------------------------
  // segment_audio

  /** `f"{audio_file_name}_part_{i + 1}"`, without the extension. */
  function SegmentStem(base: string, k: nat): string {
    base + "_part_" + Render(k)
  }

  /** `f"{audio_file_name}_part_{i + 1}.mp3"` */
  function SegmentName(base: string, k: nat): Name {
    SegmentStem(base, k) + AudioExtension
  }

  /** `os.path.join(dest_file_dir, segment_file_string)` */
  function SegmentPath(dir: Path, base: string, k: nat): Path {
    Join(dir, SegmentName(base, k))
  }

  lemma SegmentStemsDistinct(base: string, j: nat, k: nat)
    requires SegmentStem(base, j) == SegmentStem(base, k)
    ensures j == k
  {
    var pre := base + "_part_";
    assert Render(j) == SegmentStem(base, j)[|pre|..] == SegmentStem(base, k)[|pre|..] == Render(k);
    RenderInjective(j, k);
  }

  lemma SegmentNamesDistinct(base: string, j: nat, k: nat)
    requires SegmentName(base, j) == SegmentName(base, k)
    ensures j == k
  {
    var sj, sk := SegmentStem(base, j), SegmentStem(base, k);
    assert |sj| == |sk|;
    assert sj == SegmentName(base, j)[..|sj|] == SegmentName(base, k)[..|sk|] == sk;
    SegmentStemsDistinct(base, j, k);
  }

  /** Different windows of one recording get different target paths. */
  lemma SegmentPathsDistinct(dir: Path, base: string, j: nat, k: nat)
    requires SegmentPath(dir, base, j) == SegmentPath(dir, base, k)
    ensures j == k
  {
    var nj, nk := SegmentName(base, j), SegmentName(base, k);
    assert StartsWithSlash(nj) <==> StartsWithSlash(nk) by {
      if base != "" {
        assert nj[0] == base[0] == nk[0];
      } else {
        assert nj[0] == '_' == nk[0];
      }
    }
    if StartsWithSlash(nj) {
      assert nj == SegmentPath(dir, base, j);
    } else {
      JoinCancel(dir, nj, nk);
    }
    SegmentNamesDistinct(base, j, k);
  }

  /** The segment file of a plain base name lies strictly inside `dir`: it is
      never `dir` itself. */
  lemma SegmentPathBelowDir(dir: Path, base: string, k: nat)
    requires !StartsWithSlash(base)
    ensures SegmentPath(dir, base, k) != dir
  {
    var n := SegmentName(base, k);
    assert !StartsWithSlash(n) by {
      if base == "" { assert n[0] == '_'; } else { assert n[0] == base[0]; }
    }
  }

  /** Every segment file is an `.mp3` file to the lister: joined to any
      directory, `{base}_part_{k}.mp3` of a `/`-free base has the extension
      `.mp3` once lower-cased. */
  lemma SegmentNameIsAudio(dir: Path, base: string, k: nat)
    requires '/' !in base
    ensures Lower(Extension(SegmentPath(dir, base, k))) == AudioExtension
  {
    var stem := SegmentStem(base, k);
    StemShape(base, k);
    assert SegmentName(base, k) == stem + "." + "mp3";
    ExtensionOfDotted(stem, "mp3");
    ExtensionOfJoin(dir, SegmentName(base, k));
    AudioExtensionIsLower();
  }

  lemma StemShape(base: string, k: nat)
    requires '/' !in base
    ensures '/' !in SegmentStem(base, k)
    ensures SegmentStem(base, k)[|base|] == '_'
  {
    var stem := SegmentStem(base, k);
    RenderHasNo(k, '/');
    assert forall i :: 0 <= i < |stem| ==> stem[i] in base || stem[i] in "_part_" || stem[i] in Render(k);
  }

  lemma AudioExtensionIsLower()
    ensures Lower(AudioExtension) == AudioExtension
  {
    var l := Lower(AudioExtension);
    assert forall i :: 0 <= i < |l| ==> l[i] == AudioExtension[i];
  }

  /** So the lister of the segment directory keeps every part that exists
      there as a regular file. */
  lemma ListerKeepsSegments(fs: FS, dir: Path, base: string, k: nat)
    requires '/' !in base && IsFile(fs, SegmentPath(dir, base, k))
    ensures IsAudioFile(fs, dir, AudioExtension, SegmentName(base, k))
  {
    SegmentNameIsAudio(dir, base, k);
  }

  /** The loop of segment_audio from window `i` on: window `i` goes to part
      `i + 1` unless something already exists at that path. */
  function ExportWindows(fs: FS, dir: Path, base: string, total: nat, len: nat, i: nat, n: nat): (r: FS)
    requires i <= n
    ensures r.dirs == fs.dirs
    ensures KeepsFiles(fs, r)
    ensures forall k :: i < k <= n ==> Exists(r, SegmentPath(dir, base, k))
    ensures forall p :: p in r.files && p !in fs.files ==> exists k :: i < k <= n && p == SegmentPath(dir, base, k)
    ensures forall p :: p in r.files && p !in fs.files ==> p !in fs.dirs
    ensures forall k :: i < k <= n && !Exists(fs, SegmentPath(dir, base, k)) ==>
              SegmentPath(dir, base, k) in r.files && r.files[SegmentPath(dir, base, k)] == Audio(ClippedLength(total, len, k - 1))
    decreases n - i
  {
    if i == n then fs
    else
      var path := SegmentPath(dir, base, i + 1);
      var fs1 := if Exists(fs, path) then fs else fs.(files := fs.files[path := Audio(ClippedLength(total, len, i))]);
      LaterPathsDiffer(dir, base, i, n);
      ExportWindows(fs1, dir, base, total, len, i + 1, n)
  }

  lemma LaterPathsDiffer(dir: Path, base: string, i: nat, n: nat)
    ensures forall k :: i + 1 < k <= n ==> SegmentPath(dir, base, k) != SegmentPath(dir, base, i + 1)
  {
    forall k | i + 1 < k <= n ensures SegmentPath(dir, base, k) != SegmentPath(dir, base, i + 1) {
      if SegmentPath(dir, base, k) == SegmentPath(dir, base, i + 1) {
        SegmentPathsDistinct(dir, base, k, i + 1);
      }
    }
  }

  /** Once every target from window `i` on exists, the loop writes nothing. */
  lemma {:induction false} ExportWindowsSkipsExisting(fs: FS, dir: Path, base: string, total: nat, len: nat, i: nat, n: nat)
    requires i <= n
    requires forall k :: i < k <= n ==> Exists(fs, SegmentPath(dir, base, k))
    ensures ExportWindows(fs, dir, base, total, len, i, n) == fs
    decreases n - i
  {
    if i < n {
      ExportWindowsSkipsExisting(fs, dir, base, total, len, i + 1, n);
    }
  }

  /** segment_audio: load the recording, create the output directory if it is
      absent, count the windows, and export each window whose target does not
      exist yet. Nothing that existed before is ever overwritten. */
  function SegmentAudio(fs: FS, name: string, sourcePath: Path, segmentDir: Path, len: nat): (r: Step)
    ensures r.raised.None? <==> LoadAudio(fs, sourcePath).Ok? && len > 0
    ensures LoadAudio(fs, sourcePath).Err? ==> r == Step(fs, Some(DecodeFailed(sourcePath)))
    ensures LoadAudio(fs, sourcePath).Ok? && len == 0 ==>
              r.raised == Some(ZeroSegmentLength) && r.fs.files == fs.files && Exists(r.fs, segmentDir)
    ensures KeepsFiles(fs, r.fs)
    ensures fs.dirs <= r.fs.dirs <= fs.dirs + {segmentDir}
    ensures Exists(fs, segmentDir) ==> r.fs.dirs == fs.dirs
    ensures r.raised.None? ==>
              var n := SegmentCount(LoadAudio(fs, sourcePath).value, len);
              && Exists(r.fs, segmentDir)
              && (forall k :: 1 <= k <= n ==> Exists(r.fs, SegmentPath(segmentDir, name, k)))
              && (forall p :: p in r.fs.files && p !in fs.files ==> exists k :: 1 <= k <= n && p == SegmentPath(segmentDir, name, k))
              && (forall p :: p in r.fs.files && p !in fs.files ==> p !in r.fs.dirs)
    ensures r.raised.None? ==>
              var total := LoadAudio(fs, sourcePath).value;
              forall k :: 1 <= k <= SegmentCount(total, len) && !Exists(fs, SegmentPath(segmentDir, name, k))
                          && SegmentPath(segmentDir, name, k) != segmentDir ==>
                SegmentPath(segmentDir, name, k) in r.fs.files && r.fs.files[SegmentPath(segmentDir, name, k)] == Audio(ClippedLength(total, len, k - 1))
  {
    match LoadAudio(fs, sourcePath)
    case Err(e) => Step(fs, Some(e))
    case Ok(total) =>
      var fs1 := MakeDirsIfAbsent(fs, segmentDir);
      if len == 0 then Step(fs1, Some(ZeroSegmentLength))
      else Step(ExportWindows(fs1, segmentDir, name, total, len, 0, SegmentCount(total, len)), None)
  }

  /** Running the segmenter again on its own output changes nothing: every
      target now exists, so every window is skipped. */
  lemma SegmentAudioIdempotent(fs: FS, name: string, sourcePath: Path, segmentDir: Path, len: nat)
    requires SegmentAudio(fs, name, sourcePath, segmentDir, len).raised.None?
    ensures var fs' := SegmentAudio(fs, name, sourcePath, segmentDir, len).fs;
            SegmentAudio(fs', name, sourcePath, segmentDir, len) == Step(fs', None)
  {
    var fs' := SegmentAudio(fs, name, sourcePath, segmentDir, len).fs;
    var total := LoadAudio(fs, sourcePath).value;
    assert LoadAudio(fs', sourcePath) == Ok(total);
    assert MakeDirsIfAbsent(fs', segmentDir) == fs';
    ExportWindowsSkipsExisting(fs', segmentDir, name, total, len, 0, SegmentCount(total, len));
  }

  // ---------------------------------------------------------------------
  // transcribe_audio

  /** What the speech-recognition side does with one segment: return text,
      raise inside the `try` around `recognize_google`, or fail earlier in
      `sr.AudioFile` / `record`, outside that `try`. */
  datatype Recognition =
    | Recognized(text: string)
    | RecognizerRaised(detail: string)
    | SourceUnreadable(detail: string)

  /** The word whose presence empties a transcript. */
  const ExceptionWord: string := "Exception"

  /** The text the `except` branch stores: it starts with the word itself. */
  function ExceptionMessage(path: Path, detail: string): string {
    ExceptionWord + " occurred while processing file " + path + ": " + detail
  }

  /** `'' if 'Exception' in text else text` */
  function Collapse(text: string): (r: string)
    ensures !Contains(r, ExceptionWord)
    ensures r == text || r == ""
    ensures !Contains(text, ExceptionWord) ==> r == text
  {
    if Contains(text, ExceptionWord) then "" else text
  }

  /** transcribe_audio: decoding the segment and opening it for recognition
      can raise; a recognizer failure cannot, because it becomes a message
      that the final collapse turns into `''`. */
  function Transcribe(fs: FS, name: Name, path: Path, heard: Recognition): (r: Result<string>)
    ensures r.Ok? <==> LoadAudio(fs, path).Ok? && !heard.SourceUnreadable?
    ensures LoadAudio(fs, path).Err? ==> r == Err(DecodeFailed(path))
    ensures LoadAudio(fs, path).Ok? && heard.SourceUnreadable? ==> r == Err(AudioFileFailed(path, heard.detail))
    ensures r.Ok? ==> !Contains(r.value, ExceptionWord)
    ensures r.Ok? ==> r.value == "" || heard == Recognized(r.value)
    ensures r.Ok? && heard.RecognizerRaised? ==> r.value == ""
    ensures r.Ok? && heard.Recognized? ==> (r.value == heard.text <==> !Contains(heard.text, ExceptionWord))
  {
    match LoadAudio(fs, path)
    case Err(e) => Err(e)
    case Ok(_) =>
      match heard
      case SourceUnreadable(detail) => Err(AudioFileFailed(path, detail))
      case Recognized(text) => Ok(Collapse(text))
      case RecognizerRaised(detail) =>
        ContainsPrefix(ExceptionWord, " occurred while processing file " + path + ": " + detail);
        assert ExceptionMessage(path, detail) == ExceptionWord + (" occurred while processing file " + path + ": " + detail);
        Ok(Collapse(ExceptionMessage(path, detail)))
  }

  // ---------------------------------------------------------------------
  // write_text_to_file

  /** `f"{dest_text_dir}/{fname}.txt"` */
  function TranscriptPath(textDir: Path, stem: string): Path {
    textDir + "/" + stem + ".txt"
  }

  /** `fs'` is `fs` with `p` set to `c` and every other file as it was. */
  predicate WroteOnly(fs: FS, fs': FS, p: Path, c: Content) {
    && p in fs'.files && fs'.files[p] == c
    && fs'.files.Keys == fs.files.Keys + {p}
    && forall q :: q in fs.files && q != p ==> fs'.files[q] == fs.files[q]
  }

  /** write_text_to_file: create the transcript directory if absent, name the
      transcript after what precedes the first `.` of the segment name, and
      write the text there, replacing whatever was there. */
  function WriteTranscript(fs: FS, text: string, name: Name, path: Path, textDir: Path): (r: Step)
    ensures Exists(r.fs, textDir)
    ensures fs.dirs <= r.fs.dirs <= fs.dirs + {textDir}
    ensures '.' !in name ==> r.raised == Some(NoExtensionSeparator(name)) && r.fs.files == fs.files
    ensures '.' in name ==>
              var tp := TranscriptPath(textDir, SplitFirst(name, '.').value.0);
              && (r.raised.None? <==> tp !in fs.dirs)
              && (r.raised.Some? ==> r.raised == Some(IsADirectory(tp)) && r.fs.files == fs.files)
              && (r.raised.None? ==> WroteOnly(fs, r.fs, tp, Text(text)))
  {
    var fs1 := MakeDirsIfAbsent(fs, textDir);
    match SplitFirst(name, '.')
    case None => Step(fs1, Some(NoExtensionSeparator(name)))
    case Some(parts) =>
      var tp := TranscriptPath(textDir, parts.0);
      assert tp != textDir by { assert |tp| > |textDir|; }
      if tp in fs1.dirs then Step(fs1, Some(IsADirectory(tp)))
      else Step(fs1.(files := fs1.files[tp := Text(text)]), None)
  }

  /** Across the two stages: the segment `{base}_part_{k}.mp3` is transcribed
      to `{base}_part_{k}.txt` in the transcript directory. */
  lemma TranscriptOfSegment(fs: FS, text: string, base: string, k: nat, path: Path, textDir: Path)
    requires '.' !in base
    ensures var r := WriteTranscript(fs, text, SegmentName(base, k), path, textDir);
            var tp := TranscriptPath(textDir, SegmentStem(base, k));
            && (r.raised.None? <==> tp !in fs.dirs)
            && (r.raised.None? ==> WroteOnly(fs, r.fs, tp, Text(text)))
  {
    var stem := SegmentStem(base, k);
    RenderHasNo(k, '.');
    assert '.' !in stem by {
      assert forall i :: 0 <= i < |stem| ==> stem[i] in base || stem[i] in "_part_" || stem[i] in Render(k);
    }
    assert SegmentName(base, k) == stem + ['.'] + "mp3";
    SplitFirstOfJoin(stem, '.', "mp3");
  }

  /** Different parts of one recording never share a transcript. */
  lemma TranscriptPathsDistinct(textDir: Path, base: string, j: nat, k: nat)
    requires TranscriptPath(textDir, SegmentStem(base, j)) == TranscriptPath(textDir, SegmentStem(base, k))
    ensures j == k
  {
    var sj, sk := SegmentStem(base, j), SegmentStem(base, k);
    var pre := textDir + "/";
    assert |sj| == |sk|;
    assert sj == TranscriptPath(textDir, sj)[|pre|..|pre| + |sj|] == TranscriptPath(textDir, sk)[|pre|..|pre| + |sk|] == sk;
    SegmentStemsDistinct(base, j, k);
  }
}

=== FILE: paths.dfy ===
/**
 The two pieces of `os.path` the pipeline uses on POSIX: `os.path.join` with
 two arguments, and the extension half of `os.path.splitext`.
 */
module Paths {

  type Path = string
  type Name = string

  predicate StartsWithSlash(s: string) {
    |s| > 0 && s[0] == '/'
  }

  predicate EndsWithSlash(s: string) {
    |s| > 0 && s[|s| - 1] == '/'
  }

  /** What `os.path.join(a, b)` puts in front of a `b` that is not absolute:
      nothing, `a` itself, or `a` and one separator. It is empty or ends in `/`. */
  function JoinPrefix(a: Path): (pre: Path)
    ensures pre == "" || EndsWithSlash(pre)
    ensures |a| <= |pre| <= |a| + 1 && pre[..|a|] == a
    ensures a == "" || EndsWithSlash(a) ==> pre == a
  {
    if |a| == 0 || EndsWithSlash(a) then a else a + "/"
  }

  /** `os.path.join(a, b)`: an absolute `b` replaces `a`; otherwise `b` is
      appended, with one `/` inserted unless `a` is empty or already ends in one. */
  function Join(a: Path, b: Name): Path {
    if StartsWithSlash(b) then b else JoinPrefix(a) + b
  }

  /** Joining onto the same directory never merges two different relative names. */
  lemma JoinCancel(a: Path, x: Name, y: Name)
    requires !StartsWithSlash(x) && !StartsWithSlash(y)
    requires Join(a, x) == Join(a, y)
    ensures x == y
  {
    var pre := JoinPrefix(a);
    assert x == (pre + x)[|pre|..] == (pre + y)[|pre|..] == y;
  }

  /** `s.rfind(c)`: the last position of `c` in `s`, or -1. */
  function LastIndex(s: string, c: char): (r: int)
    ensures -1 <= r < |s|
    ensures r >= 0 ==> s[r] == c
    ensures forall j :: r < j < |s| ==> s[j] != c
    decreases |s|
  {
    if |s| == 0 then -1
    else if s[|s| - 1] == c then |s| - 1
    else LastIndex(s[..|s| - 1], c)
  }

  lemma LastIndexUnique(s: string, c: char, r: int)
    requires -1 <= r < |s|
    requires r >= 0 ==> s[r] == c
    requires forall j :: r < j < |s| ==> s[j] != c
    ensures LastIndex(s, c) == r
  {
  }

  lemma LastIndexAppend(pre: string, n: string, c: char)
    ensures LastIndex(pre + n, c)
         == if LastIndex(n, c) >= 0 then |pre| + LastIndex(n, c) else LastIndex(pre, c)
  {
    var s := pre + n;
    var ln := LastIndex(n, c);
    var lp := LastIndex(pre, c);
    assert forall j :: |pre| <= j < |s| ==> s[j] == n[j - |pre|];
    assert forall j :: 0 <= j < |pre| ==> s[j] == pre[j];
    if ln >= 0 {
      LastIndexUnique(s, c, |pre| + ln);
    } else {
      LastIndexUnique(s, c, lp);
    }
  }

  predicate HasNonDotBetween(p: string, lo: int, hi: int)
    requires -1 <= lo && hi <= |p|
  {
    exists j :: lo < j < hi && p[j] != '.'
  }

  /** `os.path.splitext(p)[1]`: from the last `.` of the last path component
      to the end, provided that component has something other than dots before
      that `.` (so `.bashrc` and `..` have no extension); otherwise empty. */
  function Extension(p: Path): (e: string)
    ensures e == "" || (e[0] == '.' && '/' !in e && |e| <= |p| && p[|p| - |e|..] == e)
    ensures e != "" ==> '.' !in e[1..]
  {
    var sep := LastIndex(p, '/');
    var dot := LastIndex(p, '.');
    if sep < dot && HasNonDotBetween(p, sep, dot) then p[dot..] else ""
  }

  lemma LastSlashAfterPrefix(pre: string, n: string)
    requires pre == "" || EndsWithSlash(pre)
    requires '/' !in n
    ensures LastIndex(pre + n, '/') == |pre| - 1
  {
    LastIndexAppend(pre, n, '/');
    if pre != "" {
      LastIndexUnique(pre, '/', |pre| - 1);
    }
  }

  lemma LastDotAfterPrefix(pre: string, n: string)
    requires pre == "" || EndsWithSlash(pre)
    ensures LastIndex(n, '.') >= 0 ==> LastIndex(pre + n, '.') == |pre| + LastIndex(n, '.')
    ensures LastIndex(n, '.') < 0 ==> LastIndex(pre + n, '.') < |pre|
  {
    LastIndexAppend(pre, n, '.');
  }

  lemma NonDotShift(pre: string, n: string, hi: int)
    requires 0 <= hi <= |n|
    ensures HasNonDotBetween(pre + n, |pre| - 1, |pre| + hi) <==> HasNonDotBetween(n, -1, hi)
  {
    var p := pre + n;
    if HasNonDotBetween(n, -1, hi) {
      var j :| -1 < j < hi && n[j] != '.';
      assert p[|pre| + j] == n[j];
    }
    if HasNonDotBetween(p, |pre| - 1, |pre| + hi) {
      var j :| |pre| - 1 < j < |pre| + hi && p[j] != '.';
      assert n[j - |pre|] == p[j];
    }
  }

  /** Joining a plain name onto a directory does not change its extension:
      the lister's test on the full path is a test on the file name. */
  lemma ExtensionOfJoin(dir: Path, n: Name)
    requires '/' !in n
    ensures Extension(Join(dir, n)) == Extension(n)
  {
    var pre := JoinPrefix(dir);
    var p := pre + n;
    assert Join(dir, n) == p;
    LastSlashAfterPrefix(pre, n);
    LastDotAfterPrefix(pre, n);
    assert LastIndex(n, '/') == -1;
    var dotN := LastIndex(n, '.');
    if dotN >= 0 {
      NonDotShift(pre, n, dotN);
      assert p[|pre| + dotN..] == n[dotN..];
      assert Extension(n) == if HasNonDotBetween(n, -1, dotN) then n[dotN..] else "";
    } else {
      assert Extension(n) == "";
    }
  }

  /** A `/`-free name with something other than dots before its last `.` has
      the extension from that `.` on: `splitext("a_part_1.mp3")[1] == ".mp3"`. */
  lemma ExtensionOfDotted(stem: string, x: string)
    requires '/' !in stem && '/' !in x && '.' !in x
    requires exists j :: 0 <= j < |stem| && stem[j] != '.'
    ensures Extension(stem + "." + x) == "." + x
  {
    var p := stem + "." + x;
    assert forall j :: |stem| < j < |p| ==> p[j] == x[j - |stem| - 1];
    assert forall j :: 0 <= j < |stem| ==> p[j] == stem[j];
    assert '/' !in p;
    LastIndexUnique(p, '/', -1);
    LastIndexUnique(p, '.', |stem|);
    var j :| 0 <= j < |stem| && stem[j] != '.';
    assert p[j] != '.';
    assert HasNonDotBetween(p, -1, |stem|);
    assert p[|stem|..] == "." + x;
  }
}

=== FILE: prototype.dfy ===
/**
 The earlier prototype segmenter in the top-level parser.py: the same window
 arithmetic, files named `segment_{k}.mp3` in the working directory, and no
 existence check, so every window is exported over whatever was there.
 */
module Prototype {
  import opened Results
  import opened Decimal
  import opened Paths
  import opened FileSystem
  import opened Windows

  /** `f"segment_{i + 1}.mp3"`, relative to the working directory. */
  function PrototypeName(k: nat): Path {
    "segment_" + Render(k) + ".mp3"
  }

  lemma PrototypeNamesDistinct(j: nat, k: nat)
    requires PrototypeName(j) == PrototypeName(k)
    ensures j == k
  {
    var rj, rk := Render(j), Render(k);
    assert |rj| == |rk|;
    assert rj == PrototypeName(j)[8..8 + |rj|] == PrototypeName(k)[8..8 + |rk|] == rk;
    RenderInjective(j, k);
  }

  lemma LaterPartDiffers(j: nat, k: nat)
    requires j < k
    ensures PrototypeName(k) != PrototypeName(j)
  {
    if PrototypeName(k) == PrototypeName(j) {
      PrototypeNamesDistinct(k, j);
    }
  }

  /** `p` is the name of one of the parts after `i`, up to `n`. */
  predicate IsPartAfter(p: Path, i: nat, n: nat) {
    exists k :: i < k <= n && p == PrototypeName(k)
  }

  lemma PartAfterSplit(p: Path, i: nat, n: nat)
    requires i < n
    ensures IsPartAfter(p, i, n) <==> p == PrototypeName(i + 1) || IsPartAfter(p, i + 1, n)
  {
    if IsPartAfter(p, i, n) {
      var k :| i < k <= n && p == PrototypeName(k);
      if k != i + 1 {
        assert IsPartAfter(p, i + 1, n);
      }
    }
  }

  /** A path named like one of the prototype's parts. */
  predicate LooksLikePart(p: Path) {
    |p| >= 8 && p[..8] == "segment_"
  }

  lemma PartsLookLikeParts(k: nat)
    ensures LooksLikePart(PrototypeName(k))
  {
    assert PrototypeName(k)[..8] == "segment_";
  }

  /** The export loop from window `i` on, writing parts `i + 1` to `n` over
      whatever files are there. */
  function ExportAll(fs: FS, total: nat, len: nat, i: nat, n: nat): (r: FS)
    requires i <= n
    ensures r.dirs == fs.dirs
    ensures forall k :: i < k <= n ==>
              PrototypeName(k) in r.files && r.files[PrototypeName(k)] == Audio(ClippedLength(total, len, k - 1))
    ensures forall p :: p in r.files <==> p in fs.files || IsPartAfter(p, i, n)
    ensures forall p :: p in fs.files && !IsPartAfter(p, i, n) ==> r.files[p] == fs.files[p]
    decreases n - i
  {
    if i == n then fs
    else
      var fs1 := fs.(files := fs.files[PrototypeName(i + 1) := Audio(ClippedLength(total, len, i))]);
      ExportStep(i, n);
      ExportAll(fs1, total, len, i + 1, n)
  }

  /** The part written first is none of the later ones, and the parts after
      `i` are it and the parts after `i + 1`. */
  lemma ExportStep(i: nat, n: nat)
    requires i < n
    ensures forall k :: i + 1 < k <= n ==> PrototypeName(k) != PrototypeName(i + 1)
    ensures forall p :: IsPartAfter(p, i, n) <==> p == PrototypeName(i + 1) || IsPartAfter(p, i + 1, n)
  {
    forall k | i + 1 < k <= n ensures PrototypeName(k) != PrototypeName(i + 1) {
      LaterPartDiffers(i + 1, k);
    }
    forall p ensures IsPartAfter(p, i, n) <==> p == PrototypeName(i + 1) || IsPartAfter(p, i + 1, n) {
      PartAfterSplit(p, i, n);
    }
  }

  /** The first part after `i`, up to `n`, whose name a directory takes, or
      `n + 1` when there is none. */
  function FirstBlocked(dirs: set<Path>, i: nat, n: nat): (m: nat)
    requires i <= n
    ensures i < m <= n + 1
    ensures forall k :: i < k < m ==> PrototypeName(k) !in dirs
    ensures m <= n ==> PrototypeName(m) in dirs
    decreases n - i
  {
    if i == n then n + 1
    else if PrototypeName(i + 1) in dirs then i + 1
    else FirstBlocked(dirs, i + 1, n)
  }

  /** No part from 1 to `n` is named like a directory. */
  predicate NoPartIsDirectory(dirs: set<Path>, n: nat) {
    forall k :: 1 <= k <= n ==> PrototypeName(k) !in dirs
  }

  lemma NoneBlocked(dirs: set<Path>, n: nat)
    ensures FirstBlocked(dirs, 0, n) == n + 1 <==> NoPartIsDirectory(dirs, n)
  {
    var m := FirstBlocked(dirs, 0, n);
    if m <= n {
      assert PrototypeName(m) in dirs;
    }
  }

  /** parser.py's segment_audio: load, count, and export every window,
      replacing any file of the same name. Unlike the pipeline's segmenter it
      creates no directory and skips nothing. A directory at a part's name
      makes that part's `export` raise, with the parts before it written;
      since the loop writes only files, the directories it meets are the ones
      there at the start, so the part that stops it is known before it runs. */
  function PrototypeSegment(fs: FS, sourcePath: Path, len: nat): (r: Step)
    ensures r.fs.dirs == fs.dirs
    ensures LoadAudio(fs, sourcePath).Err? ==> r == Step(fs, Some(DecodeFailed(sourcePath)))
    ensures LoadAudio(fs, sourcePath).Ok? && len == 0 ==> r == Step(fs, Some(ZeroSegmentLength))
    ensures r.raised.None? <==>
              LoadAudio(fs, sourcePath).Ok? && len > 0
              && NoPartIsDirectory(fs.dirs, SegmentCount(LoadAudio(fs, sourcePath).value, len))
    ensures LoadAudio(fs, sourcePath).Ok? && len > 0 ==>
              var total := LoadAudio(fs, sourcePath).value;
              var n := SegmentCount(total, len);
              var m := FirstBlocked(fs.dirs, 0, n);
              && (m <= n ==> r.raised == Some(IsADirectory(PrototypeName(m))))
              && (forall k :: 0 < k < m ==>
                    PrototypeName(k) in r.fs.files && r.fs.files[PrototypeName(k)] == Audio(ClippedLength(total, len, k - 1)))
              && (forall p :: p in r.fs.files <==> p in fs.files || IsPartAfter(p, 0, m - 1))
              && (forall p :: p in fs.files && !IsPartAfter(p, 0, m - 1) ==> r.fs.files[p] == fs.files[p])
  {
    match LoadAudio(fs, sourcePath)
    case Err(e) => Step(fs, Some(e))
    case Ok(total) =>
      if len == 0 then Step(fs, Some(ZeroSegmentLength))
      else
        var n := SegmentCount(total, len);
        var m := FirstBlocked(fs.dirs, 0, n);
        NoneBlocked(fs.dirs, n);
        Step(ExportAll(fs, total, len, 0, m - 1), if m <= n then Some(IsADirectory(PrototypeName(m))) else None)
  }

  /** Exporting the same windows a second time writes what is already there. */
  lemma ExportAllAgain(fs: FS, total: nat, len: nat, n: nat)
    ensures var fs1 := ExportAll(fs, total, len, 0, n);
            ExportAll(fs1, total, len, 0, n) == fs1
  {
    var fs1 := ExportAll(fs, total, len, 0, n);
    var fs2 := ExportAll(fs1, total, len, 0, n);
    assert fs2.files.Keys == fs1.files.Keys;
    forall p | p in fs1.files ensures fs2.files[p] == fs1.files[p] {
      if IsPartAfter(p, 0, n) {
        var k :| 0 < k <= n && p == PrototypeName(k);
      }
    }
    assert fs2.files == fs1.files;
  }

  /** Re-running the prototype leaves the files as the first run left them:
      every window is exported again, but with the content it already has.
      This needs the recording itself not to be named like a part, since the
      first run would have overwritten it, and no directory named like one. */
  lemma PrototypeRerun(fs: FS, sourcePath: Path, len: nat)
    requires LoadAudio(fs, sourcePath).Ok? && len > 0
    requires !LooksLikePart(sourcePath)
    requires forall d :: d in fs.dirs ==> !LooksLikePart(d)
    ensures var r := PrototypeSegment(fs, sourcePath, len);
            && r.raised.None?
            && PrototypeSegment(r.fs, sourcePath, len) == Step(r.fs, None)
  {
    var total := LoadAudio(fs, sourcePath).value;
    var n := SegmentCount(total, len);
    forall k: nat ensures PrototypeName(k) !in fs.dirs && PrototypeName(k) != sourcePath {
      PartsLookLikeParts(k);
    }
    assert FirstBlocked(fs.dirs, 0, n) == n + 1;
    var fs1 := ExportAll(fs, total, len, 0, n);
    assert PrototypeSegment(fs, sourcePath, len) == Step(fs1, None);
    assert !IsPartAfter(sourcePath, 0, n);
    assert LoadAudio(fs1, sourcePath) == Ok(total);
    ExportAllAgain(fs, total, len, n);
  }
}

=== FILE: results.dfy ===
/**
 The failure vocabulary of the pipeline: the exceptions the modelled Python
 code can raise, and the Option/Result wrappers the model uses in place of
 `None` returns and raised exceptions.
 */
module Results {

  datatype Option<+T> = None | Some(value: T)

  /** Every exception the modelled code lets escape. None of them is caught
      anywhere in the pipeline, so each one ends the run. */
  datatype Error =
    | ListDirFailed(dir: string)          // os.listdir on a missing or unreadable directory
    | NoExtensionSeparator(name: string)  // `name.split('.', 1)` unpacked into two names
    | DecodeFailed(path: string)          // AudioSegment.from_mp3 could not load the file
    | ZeroSegmentLength                   // `total // 0` in the window count
    | AudioFileFailed(path: string, detail: string)  // sr.AudioFile / record outside the try
    | IsADirectory(path: string)          // open(path, "w") on a directory

  /** The value a call returns, or the exception it raises. */
  datatype Result<+T> = Ok(value: T) | Err(error: Error)
}

=== FILE: strings.dfy ===
/**
 The three Python string operations the pipeline relies on:
 `s.split(c, 1)` unpacked into two names, `sub in s`, and `s.lower()`.
 */
module Strings {
  import opened Results

  /** `s.split(c, 1)` unpacked into exactly two names: the part before the
      FIRST occurrence of `c` and everything after it. Python raises when `c`
      does not occur (the split yields one element); that is `None` here. */
  function SplitFirst(s: string, c: char): (r: Option<(string, string)>)
    ensures r.None? <==> c !in s
    ensures r.Some? ==> r.value.0 + [c] + r.value.1 == s
    ensures r.Some? ==> c !in r.value.0
  {
    if |s| == 0 then None
    else if s[0] == c then Some(([], s[1..]))
    else
      match SplitFirst(s[1..], c)
      case None => None
      case Some(parts) =>
        assert s == [s[0]] + s[1..];
        Some(([s[0]] + parts.0, parts.1))
  }

  /** The split point is unique: whatever follows the first `c`, the part
      before it is recovered exactly. */
  lemma SplitFirstOfJoin(a: string, c: char, b: string)
    requires c !in a
    ensures SplitFirst(a + [c] + b, c) == Some((a, b))
  {
    var s := a + [c] + b;
    var r := SplitFirst(s, c);
    assert c in s by { assert s[|a|] == c; }
    var a', b' := r.value.0, r.value.1;
    assert s == a' + [c] + b';
    assert s[|a|] == c && s[|a'|] == c;
    assert forall i :: 0 <= i < |a| ==> s[i] == a[i];
    assert forall i :: 0 <= i < |a'| ==> s[i] == a'[i];
    assert a' == s[..|a|] == a;
    assert b' == s[|a| + 1..] == b;
  }

  /** Python's `sub in s`: `sub` occurs as a contiguous piece of `s`. */
  predicate Contains(s: string, sub: string)
    decreases |s|
  {
    |sub| <= |s| && (s[..|sub|] == sub || Contains(s[1..], sub))
  }

  lemma ContainsPrefix(sub: string, rest: string)
    ensures Contains(sub + rest, sub)
  {
    assert (sub + rest)[..|sub|] == sub;
  }

  predicate IsUpper(c: char) {
    'A' <= c <= 'Z'
  }

  function LowerChar(c: char): char {
    if IsUpper(c) then (c as int - 'A' as int + 'a' as int) as char else c
  }

  /** `s.lower()`, restricted to the ASCII letters. */
  function Lower(s: string): (r: string)
    ensures |r| == |s|
    ensures forall i :: 0 <= i < |r| ==> !IsUpper(r[i])
    ensures forall i :: 0 <= i < |s| && !IsUpper(s[i]) ==> r[i] == s[i]
    ensures forall i :: 0 <= i < |s| && IsUpper(s[i]) ==> r[i] as int == s[i] as int + 32
  {
    seq(|s|, i requires 0 <= i < |s| => LowerChar(s[i]))
  }

  /** A lower-cased string never equals one that still holds an upper-case
      letter: comparing `Lower(x)` with `t` can only succeed for an all-lower `t`. */
  lemma LowerNeverUpper(x: string, t: string)
    requires exists i :: 0 <= i < |t| && IsUpper(t[i])
    ensures Lower(x) != t
  {
  }
}

=== FILE: windows.dfy ===
/**
 The window arithmetic shared by both segmenters: how many windows of
 `len` milliseconds a recording of `total` milliseconds is cut into, where
 window `i` lies, and how long it is once the slice stops at the end of the
 audio.
 */
module Windows {

  /** The half-open interval `[start, end)` in milliseconds. */
  datatype Span = Span(start: nat, end: nat)

  function Min(a: nat, b: nat): nat {
    if a <= b then a else b
  }

  /** `total // len + (1 if total % len != 0 else 0)`: the least number of
      windows of length `len` that together reach `total`. */
  function SegmentCount(total: nat, len: nat): (n: nat)
    requires len > 0
    ensures total <= n * len
    ensures n > 0 ==> (n - 1) * len < total
    ensures n == 0 <==> total == 0
  {
    var q, r := total / len, total % len;
    assert total == q * len + r && 0 <= r < len;
    if r != 0 then
      assert (q + 1) * len == q * len + len;
      q + 1
    else
      assert q > 0 ==> (q - 1) * len == q * len - len;
      q
  }

  lemma MulMonotone(a: nat, b: nat, len: nat)
    requires a <= b
    ensures a * len <= b * len
  {
    assert b * len == a * len + (b - a) * len;
  }

  lemma MulMonotoneIf(a: nat, b: nat, len: nat)
    ensures a <= b ==> a * len <= b * len
  {
    if a <= b {
      MulMonotone(a, b, len);
    }
  }

  /** The count is exactly the ceiling of `total / len`: no other number of
      windows both reaches `total` and has a last window that starts inside it. */
  lemma SegmentCountIsCeiling(total: nat, len: nat, m: nat)
    requires len > 0
    ensures (total <= m * len && (m == 0 || (m - 1) * len < total)) <==> m == SegmentCount(total, len)
  {
    var n := SegmentCount(total, len);
    if total <= m * len && (m == 0 || (m - 1) * len < total) && m != n {
      if m < n {
        MulMonotone(m, n - 1, len);
      } else {
        MulMonotone(n, m - 1, len);
      }
    }
  }

  /** Window `i`: `start_time = i * len`, `end_time = start_time + len`. */
  function Window(i: nat, len: nat): Span {
    Span(i * len, i * len + len)
  }

  /** `audio[start:end]` keeps only the part of the window inside the audio. */
  function Clip(w: Span, total: nat): Span {
    Span(Min(w.start, total), Min(w.end, total))
  }

  /** The duration of the slice that window `i` exports. */
  function ClippedLength(total: nat, len: nat, i: nat): nat {
    var c := Clip(Window(i, len), total);
    c.end - c.start
  }

  lemma WindowsContiguous(i: nat, len: nat)
    ensures Window(i, len).end == Window(i + 1, len).start
  {
    assert (i + 1) * len == i * len + len;
  }

  /** An earlier window ends no later than a later one starts. */
  lemma WindowsDisjoint(i: nat, j: nat, len: nat)
    requires i < j
    ensures Window(i, len).end <= Window(j, len).start
  {
    MulMonotone(i + 1, j, len);
    assert (i + 1) * len == i * len + len;
  }

  /** Every instant of the recording lies in window `t / len`, which is one of
      the windows the count produces. */
  lemma WindowCovers(total: nat, len: nat, t: nat)
    requires len > 0 && t < total
    ensures t / len < SegmentCount(total, len)
    ensures Window(t / len, len).start <= t < Window(t / len, len).end
  {
    var q := t / len;
    var n := SegmentCount(total, len);
    assert t == q * len + t % len;
    assert (q + 1) * len == q * len + len;
    if n <= q {
      MulMonotone(n, q, len);
    }
  }

  /** ... and in no other window. */
  lemma WindowUnique(len: nat, t: nat, i: nat)
    requires len > 0
    requires Window(i, len).start <= t < Window(i, len).end
    ensures i == t / len
  {
    var q := t / len;
    assert t == q * len + t % len;
    assert (i + 1) * len == i * len + len;
    assert (q + 1) * len == q * len + len;
    MulMonotoneIf(i + 1, q, len);
    MulMonotoneIf(q + 1, i, len);
  }

  /** Every produced window holds some audio; all but the last hold a full
      `len`. */
  lemma WindowLength(total: nat, len: nat, i: nat)
    requires len > 0 && i < SegmentCount(total, len)
    ensures 0 < ClippedLength(total, len, i) <= len
    ensures i + 1 < SegmentCount(total, len) ==> ClippedLength(total, len, i) == len
  {
    var n := SegmentCount(total, len);
    MulMonotone(i, n - 1, len);
    if i + 1 < n {
      MulMonotone(i + 1, n - 1, len);
      assert (i + 1) * len == i * len + len;
    }
  }

  /** The last window holds the remainder, or a full window when `len`
      divides `total`. */
  lemma LastWindowLength(total: nat, len: nat)
    requires len > 0 && total > 0
    ensures var n := SegmentCount(total, len);
            ClippedLength(total, len, n - 1) == total - (n - 1) * len
            == if total % len == 0 then len else total % len
  {
    var n := SegmentCount(total, len);
    var q, r := total / len, total % len;
    assert total == q * len + r;
    assert (n - 1) * len + len == n * len;
    if r == 0 {
      assert n == q;
      assert (q - 1) * len == q * len - len;
    } else {
      assert n == q + 1;
    }
  }

  /** The total duration exported by the first `k` windows. */
  function ExportedDuration(total: nat, len: nat, k: nat): nat {
    if k == 0 then 0 else ExportedDuration(total, len, k - 1) + ClippedLength(total, len, k - 1)
  }

  lemma {:induction false} ExportedDurationPrefix(total: nat, len: nat, k: nat)
    ensures ExportedDuration(total, len, k) == Min(k * len, total)
  {
    if k > 0 {
      ExportedDurationPrefix(total, len, k - 1);
      assert (k - 1) * len + len == k * len;
    }
  }

  /** Clipped to the recording, the windows cover it exactly once: their
      durations add up to the whole. */
  lemma {:induction false} WindowsCoverRecording(total: nat, len: nat)
    requires len > 0
    ensures ExportedDuration(total, len, SegmentCount(total, len)) == total
  {
    ExportedDurationPrefix(total, len, SegmentCount(total, len));
  }
}
